=== FILE: README.md ===
# MeetMe midpoint and venue-search model

A Dafny model of the core of MeetMe, a single-page app that finds a fair meeting
point between two addresses. The core has these parts:

- the **midpoint engine** (`src/hooks/useMidpoint.ts`). It takes the first leg of a
  driving route and walks its steps, adding up the duration (time mode) or the
  distance (any other mode). It stops at the first step whose end reaches half of
  the leg's total. It then reads a point of that step's path at the proportional
  index. If no step reaches half the total, it takes the last point of the last step.
- the `{result, loading, error}` **calculation state** around that walk. It covers
  the early rejections, the directions request, and the success, failure and
  no-route endings.
- the **venue search** hook (`src/hooks/usePlaces.ts`), and the screen's
  **controls** (`src/App.tsx`): the console-message filter, the presets, the
  "Find Midpoint" button, and the effect that starts a search.
- the **venue card** (`src/components/PlaceCard.tsx`), which loads its trip
  information lazily. The **share menu** (`src/components/ShareButton.tsx`),
  the **address autocomplete** (`src/components/AddressInput.tsx`) and the
  **details popup** (`src/components/PlaceDetailsPopup.tsx`) complete the UI part.

Everything is an immutable datatype plus pure transition functions.

- Responses from the mapping services are inputs: a status plus a payload.
- Timers, effect runs and intersection changes are abstract events.
- `encodeURIComponent` is an uninterpreted parameter `encode: string -> string`.

Costs are whole seconds or metres (`nat`), so the model uses no floating point.
Instead of comparing against half the total, it doubles both sides: a step crosses
when `2 * (running + cost) >= total`. The JavaScript index
`Math.floor(path.length * (total/2 - running) / cost)` becomes the exact quotient
`path.length * (total - 2 * running) / (2 * cost)`. A zero cost (a NaN or infinite
ratio) gives no index at all.

Files, one module each: `wrappers.dfy` (Option/Result), `js_text.dfy` (JavaScript
string idioms), `place.dfy` (the shared place record, the directions link, the
`'--'` placeholder), `midpoint.dfy`, `midpoint_calc.dfy`, `console_filter.dfy`,
`app_controls.dfy`, `nearby_search.dfy`, `place_card.dfy`, `share_button.dfy`,
`address_input.dfy`, `place_details.dfy`.

The model follows the code on three points where a reader might expect
something else:

- The index is `path.length` times the ratio, with neither the ratio nor the index
  clamped. When a step ends exactly at half the total, the index is one past the
  end of the path and the call fails (see Findings).
- A leg whose costs are missing everywhere does not fail. It falls back to the last
  point of the last step, and fails only when there are no steps or the last path
  is empty.
- A card sets `loaded` only when a request resolves. It can therefore ask several
  times before the first answer arrives, and a rejected request leaves it unloaded.

## Model

| member | source | states |
|---|---|---|
| Midpoint.WalkFrom | src/hooks/useMidpoint.ts:57-76 | The walk returns the first step that has a defined cost and where the earlier defined costs plus its own reach half the total. Steps without a cost add 0. It reports no crossing when no such step exists. |
| Midpoint.Walk | src/hooks/useMidpoint.ts:57-76 | The `for`/`continue`/`break` loop computes that same first crossing, with the same running sum and cost. |
| Midpoint.FirstCrossingUnique | src/hooks/useMidpoint.ts:61-75 | At most one result meets the first-crossing description, so the loop and the recursive walk agree. |
| Midpoint.RunningWithinTarget | src/hooks/useMidpoint.ts:57-75 | Before the walk stops, the running sum never passes half the total. |
| Midpoint.CrossingBracketsTarget | src/hooks/useMidpoint.ts:65-68 | At the chosen step, running <= total/2 <= running + cost. So the ratio lies in [0, 1] whenever the cost is positive. |
| Midpoint.CrossingIndexBounds | src/hooks/useMidpoint.ts:68-70 | At a crossing with positive cost, the index lies in [0, path.length]. It equals path.length exactly when the path is empty or running + cost equals total/2. |
| Midpoint.LocateMidpoint | src/hooks/useMidpoint.ts:50-83 | The midpoint of a leg fails with the missing-total error exactly when the selected total is absent. A failed point lookup happens only at a crossing step. A computed midpoint is a point of one of the leg's step paths. |
| Midpoint.PointAt | src/hooks/useMidpoint.ts:71 | `path[index]` is defined exactly when the index names a position of the path, and it is that point. |
| Midpoint.Fallback | src/hooks/useMidpoint.ts:79-83 | The fallback is the last point of the last step. It fails exactly when there are no steps or the last path is empty. |
| Midpoint.LocateAtCrossing | src/hooks/useMidpoint.ts:65-72 | At a crossing, the computation fails exactly when the chosen path is empty or running + cost == total/2. That case includes a zero-cost step, whose ratio is NaN. Otherwise the result is the path point at index `len*(total-2*running)/(2*cost)`. |
| Midpoint.LocateWithoutCrossing | src/hooks/useMidpoint.ts:79-83 | When no step crosses, the result is the fallback. |
| Midpoint.AllCostsMissingFallsBack | src/hooks/useMidpoint.ts:62-83 | If every step lacks the selected cost, the result is the last point of the last step. With zero steps it is a failure. |
| Midpoint.MidpointOnRoute | src/hooks/useMidpoint.ts:68-83 | A computed midpoint is always a point of one of the leg's step paths. |
| Midpoint.ModeReadsOnlyItsCostField | src/hooks/useMidpoint.ts:50-62 | The midpoint depends only on the cost field the mode selects (durations for time, distances otherwise), on the leg total of that field, and on the paths. |
| Midpoint.SixHundredFourHundredExample | src/hooks/useMidpoint.ts:56-72 | Take steps of 600 s and 400 s with a total of 1000 s. The first step crosses at ratio 5/6, so a six-point path gives its point at index 5. |
| Midpoint.EqualHalvesFail | src/hooks/useMidpoint.ts:65-72 | As written, a leg of two equal-cost steps fails: the index is one past the end of the first step's path. |
| Midpoint.ClampedIndex | src/hooks/useMidpoint.ts:68-70 | The corrected index is always a valid position. Strictly inside the step it equals the source's index. |
| Midpoint.LocateMidpointClamped | src/hooks/useMidpoint.ts:65-83 | The corrected locator fails at a crossing only when the crossing step has no points. Its missing-total failure and its fallback are as in the code, and every computed midpoint lies on the route. |
| Midpoint.ClampedCrossingInPath | src/hooks/useMidpoint.ts:68-72 | With the clamp, a crossing fails only when its step has no points. Otherwise the midpoint is a point of the crossing step. |
| Midpoint.ClampedAgreesWhereSourceSucceeds | src/hooks/useMidpoint.ts:47-83 | Wherever the code as written succeeds, the clamp gives the same point. |
| Midpoint.EqualHalvesClamped | src/hooks/useMidpoint.ts:65-72 | With the clamp, the two-equal-steps leg gets the last point of its first step. |
| MidpointCalc.Begin | src/hooks/useMidpoint.ts:20-35 | If maps are not loaded, or either address lacks a location, only the matching error message is set: result and loading are untouched and no request goes out. Otherwise loading turns on, the error is cleared, and a request goes out. |
| MidpointCalc.Evaluate | src/hooks/useMidpoint.ts:47-93 | A located result holds the first leg's computed midpoint and the whole directions response. Conversely, a resolved route whose first-leg midpoint computes always yields that midpoint, that response, and `timeBased` equal to "the mode is time". The "no route" path happens exactly when there are zero routes or zero legs. |
| MidpointCalc.Complete | src/hooks/useMidpoint.ts:85-96 | Loading ends false. On success the result becomes the located midpoint result, and it changes only then. A thrown error or a rejected request sets the route error and keeps the old result. Every other ending leaves the error as it was. |
| MidpointCalc.Calculate | src/hooks/useMidpoint.ts:14-96 | One whole call: when it produces a midpoint result, that result is stored with no error and loading off. When it produces none, the previous result stays. Once past the early rejections, loading is off at the end. |
| MidpointCalc.StoredResultOnRoute | src/hooks/useMidpoint.ts:71-89 | A newly stored midpoint is a point of the stored route's first leg. `timeBased` is true exactly when the mode is time. |
| MidpointCalc.BoundaryCrossingReportsRouteError | src/hooks/useMidpoint.ts:65-93 | When the crossing step ends exactly at half the total, the call ends with "Failed to calculate route. Please try again.", loading false, and the previous result kept. |
| MidpointCalc.LatestSuccessWins | src/hooks/useMidpoint.ts:85-96 | After any sequence of attempts, the result is the one from the latest successful attempt, or the initial one if none succeeded. Results are never merged, and loading is off again. |
| ConsoleFilter.Message | src/App.tsx:18 | The filtered text is the first argument's string. A missing or nullish first argument gives `''`. |
| ConsoleFilter.MentionsAnyIff | src/App.tsx:20-27 | The chain of `includes` tests holds exactly when some listed pattern occurs in the message. |
| JsText.ContainsIffOccurs | src/App.tsx:20-27 | `includes` holds exactly when the pattern occurs at some position of the message. |
| ConsoleFilter.PatchedConsoleForwardsIff | src/App.tsx:17-42 | A warning is dropped exactly when its message contains one of the eight warning patterns. An error is dropped exactly when it contains one of the three error patterns. Anything else reaches the original function with all its arguments unchanged. |
| ConsoleFilter.NullishFirstArgumentForwarded | src/App.tsx:33-42 | A call with a missing or nullish first argument is never suppressed. |
| ConsoleFilter.OpenNowDropped | src/App.tsx:25-36 | An `open_now is deprecated` notice is dropped both as a warning and as an error. |
| ConsoleFilter.Install | src/App.tsx:13-47 | Installing puts one filter in front of each original method and keeps the originals for the cleanup. |
| ConsoleFilter.Cleanup | src/App.tsx:44-47 | The console after unmount is the one saved at mount, so a patched console is never left in place. |
| ConsoleFilter.InstallThenCleanupIsIdentity | src/App.tsx:44-47 | Installing and then cleaning up restores the original console. |
| AppControls.Apply | src/App.tsx:205-261 | One control sets one field. The mode buttons set only the mode. The category select stores exactly the chosen option and leaves the radius alone, and the radius select does the same for the radius. Settings within the presets stay within them. |
| AppControls.SettingsStayWithinPresets | src/App.tsx:235-261 | Starting from the defaults (time, restaurant, 8047 m), the category is always one of the five options and the radius one of 1609, 4828, 8047 and 16093, whatever the user picks. |
| AppControls.HandleCalculate | src/App.tsx:60-64 | `calculateMidpoint` is called exactly when both addresses are set, with those addresses and the current mode. |
| AppControls.PressFind | src/App.tsx:265-267 | A press while loading does nothing, and a started calculation uses the chosen mode. |
| AppControls.PressStartsCalculationIff | src/App.tsx:265-267 | Pressing the button starts a calculation exactly when both addresses are set and nothing is loading. |
| AppControls.SearchTrigger | src/App.tsx:66-80 | The search effect fires exactly when a midpoint result exists and both addresses have a location. It passes the midpoint, both origins as literals, and the chosen category and radius. |
| AppControls.CategoryNeverReachesSearch | src/App.tsx:78 | As written, the five-argument call binds the first origin to `type` and the second origin to `radius`. The chosen category and radius are dropped. |
| AppControls.IntendedSearchUsesSettings | src/App.tsx:78 | With the intended binding, every search started from the screen asks for the chosen category, which is one of the five, within one of the four preset radii around the midpoint. |
| Place.ToLiteral | src/App.tsx:69-76 | For each of latitude and longitude, an accessor yields the value it returns and a plain field yields its value. |
| Place.DirectionsTarget | src/App.tsx:317 | The directions destination is the first non-empty of vicinity, formatted address and name, else `''`. |
| Place.DirectionsUrl | src/components/PlaceCard.tsx:76 | The directions link is the fixed `dir` prefix followed by the encoded destination. |
| Place.TripDisplay | src/App.tsx:334-349 | Each of the four trip fields shows its text, or `'--'` when it is absent or empty. |
| Place.NoBlankTripCell | src/App.tsx:334-349 | No trip cell is ever rendered blank. |
| NearbySearch.FailureMessage | src/hooks/usePlaces.ts:40 | The failure message is `Failed to find `, then the searched type, then `s nearby.`. |
| NearbySearch.Search | src/hooks/usePlaces.ts:14-31 | If the Places library is missing, only the "Maps not ready" error is set and no request goes out. Otherwise loading turns on, the error is cleared, and the request carries the location, radius and type unchanged. |
| NearbySearch.SearchWithDefaults | src/hooks/usePlaces.ts:8-12 | Called without type and radius, the search asks for `restaurant` within 1000 m. |
| NearbySearch.Callback | src/hooks/usePlaces.ts:33-43 | Loading ends false. An OK answer with results stores exactly those results, in order. Anything else empties the list and sets an error that names the searched type. |
| NearbySearch.FailureMessageNamesKind | src/hooks/usePlaces.ts:40 | The failure message `Failed to find <type>s nearby.` gives back the searched type. |
| NearbySearch.SearchThenCallback | src/hooks/usePlaces.ts:20-43 | A started search ends with the service's list and no error, or with an empty list and the failure message. Loading is off afterwards. |
| PlaceCard.Init | src/components/PlaceCard.tsx:26-37 | The initial details are the place's four trip fields. `loaded` starts true exactly when `distanceToA` is non-empty. |
| PlaceCard.Step | src/components/PlaceCard.tsx:39-51 | A request for the place's literal location goes out exactly when the effect runs while intersecting, not loaded, and the place has a location. A resolution replaces the details wholesale and sets loaded. A rejection changes nothing. |
| PlaceCard.NoLocationNoRequest | src/components/PlaceCard.tsx:40 | A place without a location never issues a request, whatever the events. |
| PlaceCard.LoadedIsFinal | src/components/PlaceCard.tsx:40-49 | Once loaded, a card stays loaded and never issues another request. |
| PlaceCard.AfterResolution | src/components/PlaceCard.tsx:46-49 | After a resolution, the details are exactly the resolved trip info until the next resolution. No request follows. |
| PlaceCard.UnresolvedKeepsState | src/components/PlaceCard.tsx:39-51 | Effect runs and rejections alone never change the card's state. |
| PlaceCard.RequestsAreNotDeduplicated | src/components/PlaceCard.tsx:39-51 | Scrolling out and back in before an answer arrives issues two requests. After a rejection the card is still not loaded. |
| ShareButton.ShareAddress | src/components/ShareButton.tsx:24 | The shared address is the first non-empty of vicinity and formatted address, else `''`. |
| ShareButton.MapsUrl | src/components/ShareButton.tsx:25 | The maps link is the search prefix followed by the encoded `<name> <address>`. |
| ShareButton.ShareText | src/components/ShareButton.tsx:23-27 | The share message opens with `Let's meet at <name>!` and a line break, and ends with the maps link. |
| ShareButton.ShareTextLines | src/components/ShareButton.tsx:23-27 | The share message splits back into exactly three lines: `Let's meet at <name>!`, the address, and the maps search link for `<name> <address>`. |
| ShareButton.SmsUrl | src/components/ShareButton.tsx:61-64 | The SMS link is `sms:?body=` followed by the encoded share message. |
| ShareButton.SmsAction | src/components/ShareButton.tsx:61-66 | The SMS action navigates to the SMS link and closes the menu. |
| ShareButton.Toggle | src/components/ShareButton.tsx:75-78 | A click on Share flips `isOpen` and leaves `copied` alone. |
| ShareButton.ToggleTwiceIsIdentity | src/components/ShareButton.tsx:75-78 | Each click on Share flips `isOpen`, so two clicks restore the menu. |
| ShareButton.MouseDown | src/components/ShareButton.tsx:13-21 | A mousedown outside the menu closes it. One inside the menu changes nothing, and `copied` is never touched. |
| ShareButton.CopiedExpired | src/components/ShareButton.tsx:34 | When the 2000 ms timer fires, `copied` is cleared and the menu's open flag is kept. |
| ShareButton.CopySettled | src/components/ShareButton.tsx:29-39 | A successful copy sets `copied` and closes the menu. A failed copy changes nothing. |
| ShareButton.ShareAction | src/components/ShareButton.tsx:41-59 | Native share is attempted exactly when `navigator.share` exists and `canShare` accepts the data. With `navigator.share` present but no `canShare`, the call throws and nothing happens. If `navigator.share` is absent, or `canShare` refuses the data, the share text goes to the clipboard. |
| ShareButton.ShareSettled | src/components/ShareButton.tsx:48-54 | A completed native share closes the menu. A failed one changes nothing. |
| ShareButton.MenuEntries | src/components/ShareButton.tsx:86-107 | A closed menu renders nothing. An open menu shows exactly copy (labelled by `copied`), then "Share via..." only when `navigator.share` is a function, then "Send Text": three entries in that order, or two without sharing. |
| AddressInput.InputChange | src/components/AddressInput.tsx:37-57 | The text always takes the typed value. A request goes out exactly when the value is longer than two characters and the service is ready. Otherwise the predictions are cleared and the dropdown is hidden. |
| AddressInput.PredictionsArrived | src/components/AddressInput.tsx:44-51 | An OK answer with a list stores it and shows the dropdown. Any other answer clears the predictions and leaves the dropdown flag as it was. |
| AddressInput.Focus | src/components/AddressInput.tsx:88 | Focus shows the dropdown again only when there are predictions. |
| AddressInput.BlurElapsed | src/components/AddressInput.tsx:89 | When the blur timer fires, the dropdown flag turns off. The text and predictions are kept. |
| AddressInput.External | src/components/AddressInput.tsx:31-35 | A defined external value overwrites the text. An undefined one changes nothing. |
| AddressInput.Select | src/components/AddressInput.tsx:59-70 | Picking a prediction puts its description in the field, hides the dropdown and clears the predictions. If the places service is ready, it asks for that prediction's place details. |
| AddressInput.DetailsArrived | src/components/AddressInput.tsx:71-75 | `onPlaceSelect` is called, with the place, exactly when the details answer is OK and carries a place. |
| AddressInput.DropdownNeedsAnAnswer | src/components/AddressInput.tsx:37-94 | Starting with no predictions, the dropdown list never appears, whatever the events, unless an OK answer with at least one prediction arrives. Typing and picking may happen before or after the services exist. |
| AddressInput.StaleAnswerShowsDropdown | src/components/AddressInput.tsx:41-51 | Answers are not matched to their query. An answer for a longer text can arrive after the text was cut to two characters, and it still shows the dropdown. |
| PlaceDetails.EffectRun | src/components/PlaceDetailsPopup.tsx:15-20 | A fetch starts exactly when the popup is open and the place id is non-empty. Starting sets loading, clears the error and drops the old details. Otherwise nothing changes. |
| PlaceDetails.Callback | src/components/PlaceDetailsPopup.tsx:42-50 | Loading ends false. An OK answer with a place stores it. Otherwise the error becomes "Failed to load place details.". |
| PlaceDetails.FirstFive | src/components/PlaceDetailsPopup.tsx:189 | The shown reviews are the first five, or all of them when there are five or fewer, in their original order. |
| PlaceDetails.Render | src/components/PlaceDetailsPopup.tsx:53-79 | A closed popup renders nothing. The spinner shows exactly while loading. The error text shows exactly when the error is non-empty, and it is that error. The body shows exactly when not loading, with no error, and with details present. Its reviews are exactly the first five of the place's reviews (none when the place has none). |
| PlaceDetails.OpenThenAnswer | src/components/PlaceDetailsPopup.tsx:15-50 | Opening on a place and getting an OK answer shows that place's body, with the first five of its reviews in order, whatever was shown before. A failed answer shows the failure message and no body. |

## Left out

- `src/components/Map.tsx`: map rendering glue (the directions renderer and markers). It holds no state logic of the core.
- The mapping services are not called. The directions, places, autocomplete, details and geocoder services appear only as status-plus-payload answers.
- The current-location flow (`src/App.tsx:82-159`) is left out. It uses the device geolocation API, formats numbers with `toFixed`, and chains reverse geocoding into details.
- Floating point is left out. JavaScript computes the ratio and the floor in doubles. The model uses exact integer arithmetic. A ratio such as 5/6 that is not exact in binary could, in principle, round across an integer boundary and move the index by one.
- Timers (the 2000 ms `copied` reset and the 200 ms blur) are abstract events. Overlap between asynchronous answers is modelled only as "answers arrive as events in any order, and the last one written wins". Calculations are modelled one after another, because the button is disabled while one is loading.
- React scheduling is abstract. A run of an effect is one event, and the model does not decide when React re-runs it.
- `getPlaceDistance` (the trip-cost lookup) is opaque: a card's request resolves with some trip info or rejects. Its implementation and any distance-matrix batching are not part of this model, and neither is the `PlaceWithDistance` type it uses.
- `encodeURIComponent` is an uninterpreted function parameter, and no decoding is claimed.
- Presentation is left out: markup, CSS classes, icons, ratings and photos, and the `isOpen()` flag of opening hours.
- The mode is the two-valued type `'time' | 'distance'`, and the default `'time'` of the hook's parameter is not modelled separately. The screen always passes its current mode.
- String lengths count characters. JavaScript's `length` counts UTF-16 code units.
- A logging argument is reduced to `null`/`undefined` or the result of its `toString()`.
- `navigator.share` being truthy (ShareButton.ShareAction's `shareExists`) and being a function (ShareButton.MenuEntries' `shareIsFunction`) are independent inputs, as the code makes two separate tests. No lemma relates them.
- Diagnostic logging is left out: `console.error`/`console.log` in the hooks and the share menu. It has no effect on state.
- ShareButton.ShareTextLines: this lemma assumes the name, the address and the encoded query contain no line break. `encodeURIComponent` always escapes line breaks, but the encoder is uninterpreted here.

## Findings

| source | as written | input that shows it | evidently intended | confidence | as-written member | corrected member |
|---|---|---|---|---|---|---|
| src/hooks/useMidpoint.ts:68-72 | `index = Math.floor(path.length * ratio)`. When the chosen step ends exactly at half the total, the ratio is 1 and the index is `path.length`. Then `path[index]` is `undefined`, `point.lat()` throws, and the call reports "Failed to calculate route". | A leg with total 4 made of two steps costing 2 each, with non-empty paths. | The midpoint is a point of the crossing step, with the index kept below `path.length`. | High for the arithmetic; not executed. | Midpoint.EqualHalvesFail | Midpoint.ClampedCrossingInPath |
| src/App.tsx:78 | `searchPlaces(midpoint, originA, originB, category, radius)` calls a hook whose parameters are `(location, type, radius)`. Positional binding makes `type` the first origin and `radius` the second. | Any search started from the screen. | The chosen category and radius reach the nearby-search request. | Medium: the repository looks mid-refactor; not executed. | AppControls.CategoryNeverReachesSearch | AppControls.IntendedSearchUsesSettings |

The calculation state machine (`MidpointCalc`) keeps the as-written locator,
because its contracts describe what a user of the code sees. The clamped locator
`Midpoint.LocateMidpointClamped` is the corrected definition. It is proved to agree
with the code wherever the code succeeds. The venue search started from the screen
uses the intended binding (`AppControls.IntendedSearch`).

=== FILE: address_input.dfy ===
/** The address autocomplete field: typing asks for predictions once the text
    is longer than two characters, answers fill the dropdown, focus and a
    delayed blur show and hide it, picking a prediction fills the field and
    asks for the place's details, and an externally supplied value
    overwrites the text. Service answers arrive as events in any order. */
module AddressInput {
  import opened Wrappers
  import opened Place

  datatype Prediction = Prediction(description: string, placeId: string)

  datatype InputState = InputState(text: string, predictions: seq<Prediction>, showDropdown: bool)

  const Initial := InputState("", [], false)

  datatype Status = OK | NotOk

  /** The dropdown list is on screen. */
  predicate DropdownVisible(s: InputState) {
    s.showDropdown && |s.predictions| > 0
  }

  /** The new state, and the text sent to the prediction service if a request went out. */
  datatype Typed = Typed(state: InputState, query: Option<string>)

  /** `handleInputChange`. */
  function InputChange(s: InputState, value: string, serviceReady: bool): (r: Typed)
    ensures r.state.text == value
    ensures r.query.Some? <==> |value| > 2 && serviceReady
    ensures r.query.Some? ==> r.query.value == value && r.state.predictions == s.predictions
                              && r.state.showDropdown == s.showDropdown
    ensures r.query.None? ==> r.state.predictions == [] && !DropdownVisible(r.state) && !r.state.showDropdown
  {
    if |value| > 2 && serviceReady then Typed(s.(text := value), Some(value))
    else Typed(s.(text := value, predictions := [], showDropdown := false), None)
  }

  /** The prediction callback; an OK answer with a list (even an empty one) shows the dropdown. */
  function PredictionsArrived(s: InputState, status: Status, predictions: Option<seq<Prediction>>): (t: InputState)
    ensures t.text == s.text
    ensures status == OK && predictions.Some? ==> t.predictions == predictions.value && t.showDropdown
    ensures !(status == OK && predictions.Some?) ==> t.predictions == [] && t.showDropdown == s.showDropdown
  {
    if status == OK && predictions.Some? then s.(predictions := predictions.value, showDropdown := true)
    else s.(predictions := [])
  }

  /** Focus shows the dropdown again only when there are predictions. */
  function Focus(s: InputState): (t: InputState)
    ensures |s.predictions| > 0 ==> DropdownVisible(t)
    ensures |s.predictions| == 0 ==> t == s
    ensures t.text == s.text && t.predictions == s.predictions
  {
    if |s.predictions| > 0 then s.(showDropdown := true) else s
  }

  /** The timer 200 ms after a blur. */
  function BlurElapsed(s: InputState): (t: InputState)
    ensures !DropdownVisible(t)
    ensures !t.showDropdown && t.text == s.text && t.predictions == s.predictions
  {
    s.(showDropdown := false)
  }

  /** The `value` prop: a defined value overwrites the text, an undefined one leaves it. */
  function External(s: InputState, value: Option<string>): (t: InputState)
    ensures value.Some? ==> t.text == value.value
    ensures value.None? ==> t == s
    ensures t.predictions == s.predictions && t.showDropdown == s.showDropdown
  {
    match value
    case Some(v) => s.(text := v)
    case None => s
  }

  /** The new state, and the place id whose details are requested. */
  datatype Picked = Picked(state: InputState, detailsFor: Option<string>)

  /** `handleSelectPrediction`. */
  function Select(s: InputState, p: Prediction, placesServiceReady: bool): (r: Picked)
    ensures r.state == InputState(p.description, [], false)
    ensures r.detailsFor.Some? <==> placesServiceReady
    ensures r.detailsFor.Some? ==> r.detailsFor.value == p.placeId
  {
    Picked(InputState(p.description, [], false), if placesServiceReady then Some(p.placeId) else None)
  }

  /** The details callback: the place handed to `onPlaceSelect`, if it is called at all. */
  function DetailsArrived(status: Status, place: Option<Place>): (selected: Option<Place>)
    ensures selected.Some? <==> status == OK && place.Some?
    ensures selected.Some? ==> selected == place
  {
    if status == OK && place.Some? then place else None
  }

  datatype InputEvent =
    | Type(value: string, serviceReady: bool)
    | Answer(status: Status, predictions: Option<seq<Prediction>>)
    | Focused
    | BlurTimer
    | Pick(prediction: Prediction, detailsReady: bool)
    | ExternalValue(external: Option<string>)

  /** One event; typing and picking carry whether the service they call exists yet. */
  function Next(s: InputState, e: InputEvent): InputState {
    match e
    case Type(v, ready) => InputChange(s, v, ready).state
    case Answer(st, ps) => PredictionsArrived(s, st, ps)
    case Focused => Focus(s)
    case BlurTimer => BlurElapsed(s)
    case Pick(p, ready) => Select(s, p, ready).state
    case ExternalValue(v) => External(s, v)
  }

  function Run(s: InputState, events: seq<InputEvent>): InputState
    decreases |events|
  {
    if |events| == 0 then s else Run(Next(s, events[0]), events[1..])
  }

  predicate NonEmptyAnswer(e: InputEvent) {
    e.Answer? && e.status == OK && e.predictions.Some? && |e.predictions.value| > 0
  }

  /** The dropdown list appears only after the prediction service has
      answered OK with at least one prediction: from a state with no
      predictions, no sequence of typing, focusing, blurring, picking or
      external values can show it. */
  lemma {:induction false} DropdownNeedsAnAnswer(s: InputState, events: seq<InputEvent>)
    requires s.predictions == []
    requires forall i :: 0 <= i < |events| ==> !NonEmptyAnswer(events[i])
    ensures Run(s, events).predictions == []
    ensures !DropdownVisible(Run(s, events))
    decreases |events|
  {
    if |events| > 0 {
      assert !NonEmptyAnswer(events[0]);
      DropdownNeedsAnAnswer(Next(s, events[0]), events[1..]);
    }
  }

  /** Answers are not matched to the text they were asked for: an OK answer
      for a longer text that arrives after the text was cut back to two
      characters still shows the dropdown. */
  lemma StaleAnswerShowsDropdown(q: string, p: Prediction)
    requires |q| > 2
    ensures var s := Run(Initial, [Type(q, true), Type(q[..2], true), Answer(OK, Some([p]))]);
            s.text == q[..2] && DropdownVisible(s)
  {
    var evs := [Type(q, true), Type(q[..2], true), Answer(OK, Some([p]))];
    var s1 := Next(Initial, Type(q, true));
    var s2 := Next(s1, Type(q[..2], true));
    var s3 := Next(s2, Answer(OK, Some([p])));
    assert evs[1..] == [Type(q[..2], true), Answer(OK, Some([p]))];
    assert evs[1..][1..] == [Answer(OK, Some([p]))];
    assert Run(s3, []) == s3;
    assert Run(s2, evs[1..][1..]) == s3;
    assert Run(s1, evs[1..]) == s3;
  }
}

=== FILE: app_controls.dfy ===
/** The controls of the main screen: the mode/category/radius settings and
    their presets, the "Find Midpoint" button and `handleCalculate`, and the
    effect that starts a venue search once a midpoint and both origins are
    known. */
module AppControls {
  import opened Wrappers
  import opened Place
  import opened Midpoint
  import opened MidpointCalc
  import NearbySearch

  /** The category options of the select, in order. */
  const Categories: seq<string> := ["restaurant", "cafe", "bar", "park", "shopping_mall"]

  /** The radius options of the select, in metres (1, 3, 5 and 10 miles). */
  const Radii: seq<int> := [1609, 4828, 8047, 16093]

  datatype Settings = Settings(mode: Mode, category: string, radius: int)

  const Defaults := Settings(Time, "restaurant", 8047)

  /** A change made through the controls; a select can only report one of its options. */
  datatype SettingsEvent = ChooseMode(mode: Mode) | ChooseCategory(option: nat) | ChooseRadius(option: nat)

  predicate Offered(e: SettingsEvent) {
    match e
    case ChooseMode(_) => true
    case ChooseCategory(i) => i < |Categories|
    case ChooseRadius(i) => i < |Radii|
  }

  function Apply(s: Settings, e: SettingsEvent): (t: Settings)
    requires Offered(e)
    ensures WithinPresets(s) ==> WithinPresets(t)
    ensures t.category in Categories || t.category == s.category
    ensures t.radius in Radii || t.radius == s.radius
    ensures e.ChooseMode? ==> t == s.(mode := e.mode)
    ensures !e.ChooseMode? ==> t.mode == s.mode
    ensures e.ChooseCategory? ==> t.category == Categories[e.option] && t.radius == s.radius
    ensures e.ChooseRadius? ==> t.radius == Radii[e.option] && t.category == s.category
  {
    match e
    case ChooseMode(m) => s.(mode := m)
    case ChooseCategory(i) => s.(category := Categories[i])
    case ChooseRadius(i) => s.(radius := Radii[i])
  }

  function ApplyAll(s: Settings, events: seq<SettingsEvent>): Settings
    requires forall i :: 0 <= i < |events| ==> Offered(events[i])
    decreases |events|
  {
    if |events| == 0 then s
    else Apply(ApplyAll(s, events[..|events| - 1]), events[|events| - 1])
  }

  predicate WithinPresets(s: Settings) {
    s.category in Categories && s.radius in Radii
  }

  /** Starting from the defaults, whatever the user picks, the category is one
      of the five listed and the radius one of the four presets. */
  lemma {:induction false} SettingsStayWithinPresets(events: seq<SettingsEvent>)
    requires forall i :: 0 <= i < |events| ==> Offered(events[i])
    ensures WithinPresets(ApplyAll(Defaults, events))
    decreases |events|
  {
    if |events| > 0 {
      var prefix := events[..|events| - 1];
      assert forall i :: 0 <= i < |prefix| ==> prefix[i] == events[i];
      SettingsStayWithinPresets(prefix);
    } else {
      assert Defaults.category == Categories[0] && Defaults.radius == Radii[2];
    }
  }

  /** The arguments `calculateMidpoint` is called with. */
  datatype CalculateCall = CalculateCall(origin: Place, destination: Place, mode: Mode)

  predicate FindButtonDisabled(a: Option<Place>, b: Option<Place>, loading: bool) {
    a.None? || b.None? || loading
  }

  /** `handleCalculate`: call only when both addresses are set. */
  function HandleCalculate(a: Option<Place>, b: Option<Place>, mode: Mode): (c: Option<CalculateCall>)
    ensures c.Some? <==> a.Some? && b.Some?
    ensures c.Some? ==> c.value == CalculateCall(a.value, b.value, mode)
  {
    if a.Some? && b.Some? then Some(CalculateCall(a.value, b.value, mode)) else None
  }

  /** A press of "Find Midpoint": a disabled button delivers no click. */
  function PressFind(a: Option<Place>, b: Option<Place>, settings: Settings, loading: bool): (c: Option<CalculateCall>)
    ensures loading ==> c.None?
    ensures c.Some? ==> c.value.mode == settings.mode
  {
    if FindButtonDisabled(a, b, loading) then None else HandleCalculate(a, b, settings.mode)
  }

  /** A press starts a calculation exactly when both addresses are set and no
      calculation is loading, and it passes the addresses and the chosen mode. */
  lemma PressStartsCalculationIff(a: Option<Place>, b: Option<Place>, settings: Settings, loading: bool)
    ensures PressFind(a, b, settings, loading).Some? <==> a.Some? && b.Some? && !loading
    ensures PressFind(a, b, settings, loading).Some? ==>
              PressFind(a, b, settings, loading).value == CalculateCall(a.value, b.value, settings.mode)
  {
  }

  /** The arguments the search effect passes to `searchPlaces`. */
  datatype SearchCall = SearchCall(center: LatLng, originA: LatLng, originB: LatLng, category: string, radius: int)

  predicate HasLocation(p: Option<Place>) {
    p.Some? && p.value.location.Some?
  }

  /** The search effect: fire when a midpoint result exists and both addresses have a location. */
  function SearchTrigger(result: Option<MidpointResult>, a: Option<Place>, b: Option<Place>, settings: Settings): (c: Option<SearchCall>)
    ensures c.Some? <==> result.Some? && HasLocation(a) && HasLocation(b)
    ensures c.Some? ==>
              && c.value.center == result.value.midpoint
              && c.value.originA == ToLiteral(a.value.location.value)
              && c.value.originB == ToLiteral(b.value.location.value)
              && c.value.category == settings.category
              && c.value.radius == settings.radius
  {
    if result.Some? && HasLocation(a) && HasLocation(b) then
      Some(SearchCall(result.value.midpoint, ToLiteral(a.value.location.value), ToLiteral(b.value.location.value),
                      settings.category, settings.radius))
    else None
  }

  /** A JavaScript argument value, as far as parameter binding is concerned. */
  datatype JsValue = JsLatLng(point: LatLng) | JsString(text: string) | JsNumber(number: int)

  /** The five values the effect passes, in order. */
  function CallArguments(c: SearchCall): seq<JsValue> {
    [JsLatLng(c.center), JsLatLng(c.originA), JsLatLng(c.originB), JsString(c.category), JsNumber(c.radius)]
  }

  /** The `(location, type, radius)` parameters of `searchPlaces` as bound,
      positionally, by the five-argument call; the extra arguments are dropped. */
  function BindSearchParameters(args: seq<JsValue>): (JsValue, JsValue, JsValue)
    requires |args| >= 3
  {
    (args[0], args[1], args[2])
  }

  /** As written, the search receives the first origin as its place type and
      the second origin as its radius: the chosen category and radius never
      reach the request. */
  lemma CategoryNeverReachesSearch(c: SearchCall)
    ensures var (location, kind, radius) := BindSearchParameters(CallArguments(c));
            && location == JsLatLng(c.center)
            && kind == JsLatLng(c.originA) && kind != JsString(c.category)
            && radius == JsLatLng(c.originB) && radius != JsNumber(c.radius)
  {
  }

  /** The search as evidently intended: centred on the midpoint, with the
      chosen category and radius. */
  function IntendedSearch(s: NearbySearch.PlacesState, libraryLoaded: bool, c: SearchCall): NearbySearch.Sent {
    NearbySearch.Search(s, libraryLoaded, c.center, c.category, c.radius)
  }

  /** With the intended binding, every search started from the screen asks
      for the chosen category within one of the preset radii around the
      midpoint. */
  lemma IntendedSearchUsesSettings(s: NearbySearch.PlacesState, result: MidpointResult, a: Place, b: Place,
                                   events: seq<SettingsEvent>)
    requires forall i :: 0 <= i < |events| ==> Offered(events[i])
    requires a.location.Some? && b.location.Some?
    ensures var settings := ApplyAll(Defaults, events);
            var c := SearchTrigger(Some(result), Some(a), Some(b), settings).value;
            var req := IntendedSearch(s, true, c).request.value;
            && req.location == result.midpoint
            && req.kind == settings.category && req.kind in Categories
            && req.radius == settings.radius && req.radius in Radii
  {
    SettingsStayWithinPresets(events);
  }
}

=== FILE: console_filter.dfy ===
/** The console patch installed by the app on mount: `console.warn` and
    `console.error` are replaced by filters that drop messages whose first
    argument mentions a known deprecation, and forward everything else
    unchanged to the original functions; cleanup puts the originals back. */
module ConsoleFilter {
  import opened JsText

  /** A logging argument as far as the filter sees it: `null`/`undefined`, or a value with its `toString()`. */
  datatype Arg = Nullish | Value(text: string)

  datatype Level = Warn | Error

  const WarnPatterns: seq<string> := [
    "PlacesService is not available",
    "AutocompleteService is not available",
    "AutocompleteSuggestion is recommended",
    "google.maps.Marker is deprecated",
    "AdvancedMarkerElement is recommended",
    "open_now is deprecated",
    "permanently_closed is deprecated",
    "google.maps.places.Place is recommended"
  ]

  const ErrorPatterns: seq<string> := [
    "open_now is deprecated",
    "permanently_closed is deprecated",
    "InvalidValueError: setDirections"
  ]

  function Patterns(level: Level): seq<string> {
    if level == Warn then WarnPatterns else ErrorPatterns
  }

  /** `args[0]?.toString() || ''`. */
  function Message(args: seq<Arg>): (m: string)
    ensures |args| == 0 || args[0].Nullish? ==> m == ""
    ensures |args| > 0 && args[0].Value? ==> m == args[0].text
  {
    if |args| == 0 then ""
    else match args[0]
      case Nullish => ""
      case Value(t) => t
  }

  /** The chain of `message.includes(...)` tests over the patterns. */
  predicate MentionsAny(message: string, patterns: seq<string>)
    decreases |patterns|
  {
    |patterns| > 0 && (Contains(message, patterns[0]) || MentionsAny(message, patterns[1..]))
  }

  lemma {:induction false} MentionsAnyIff(message: string, patterns: seq<string>)
    ensures MentionsAny(message, patterns) <==> exists i :: 0 <= i < |patterns| && Contains(message, patterns[i])
    decreases |patterns|
  {
    if |patterns| > 0 {
      MentionsAnyIff(message, patterns[1..]);
      if MentionsAny(message, patterns[1..]) {
        var i :| 0 <= i < |patterns[1..]| && Contains(message, patterns[1..][i]);
        assert Contains(message, patterns[i + 1]);
      }
      forall i | 0 <= i < |patterns| && Contains(message, patterns[i])
        ensures MentionsAny(message, patterns)
      {
        if i > 0 {
          assert patterns[1..][i - 1] == patterns[i];
        }
      }
    }
  }

  predicate Suppressed(level: Level, args: seq<Arg>) {
    MentionsAny(Message(args), Patterns(level))
  }

  /** Where a console method sends its arguments: an original function, or a
      filter installed in front of one. */
  datatype Sink = Original(id: nat) | Filtered(level: Level, inner: Sink)

  datatype Console = Console(warn: Sink, error: Sink)

  /** The calls that reach original functions when `sink` is invoked with `args`. */
  function Deliver(sink: Sink, args: seq<Arg>): seq<(nat, seq<Arg>)> {
    match sink
    case Original(id) => [(id, args)]
    case Filtered(level, inner) => if Suppressed(level, args) then [] else Deliver(inner, args)
  }

  /** The effect body: patch both methods, and return the cleanup's target (the originals). */
  function Install(c: Console): (r: (Console, Console))
    ensures r.1 == c
    ensures r.0.warn.Filtered? && r.0.warn.inner == c.warn
    ensures r.0.error.Filtered? && r.0.error.inner == c.error
  {
    (Console(Filtered(Warn, c.warn), Filtered(Error, c.error)), c)
  }

  /** The cleanup: assign the saved originals back, discarding the filters. */
  function Cleanup(patched: Console, saved: Console): (r: Console)
    ensures r == saved
    ensures patched != saved ==> r != patched
  {
    saved
  }

  /** Mounting and unmounting leaves the console as it was. */
  lemma InstallThenCleanupIsIdentity(c: Console)
    ensures var (patched, saved) := Install(c); Cleanup(patched, saved) == c
  {
  }

  /** Through the patched console, a warning reaches the original `console.warn`
      with all its arguments unchanged exactly when its first argument
      mentions none of the eight warning patterns; otherwise nothing is
      logged. The same holds for errors with the three error patterns. */
  lemma PatchedConsoleForwardsIff(c: Console, args: seq<Arg>)
    requires c.warn.Original? && c.error.Original?
    ensures var patched := Install(c).0;
            && Deliver(patched.warn, args) ==
                 (if exists i :: 0 <= i < |WarnPatterns| && Contains(Message(args), WarnPatterns[i])
                  then [] else [(c.warn.id, args)])
            && Deliver(patched.error, args) ==
                 (if exists i :: 0 <= i < |ErrorPatterns| && Contains(Message(args), ErrorPatterns[i])
                  then [] else [(c.error.id, args)])
  {
    MentionsAnyIff(Message(args), WarnPatterns);
    MentionsAnyIff(Message(args), ErrorPatterns);
  }

  /** A call whose first argument is missing or nullish reads as `''`, which no
      pattern occurs in, so it is always forwarded. */
  lemma {:induction false} NullishFirstArgumentForwarded(level: Level, args: seq<Arg>)
    requires |args| == 0 || args[0].Nullish?
    ensures !Suppressed(level, args)
  {
    assert Message(args) == "";
    NothingOccursInEmpty(Patterns(level));
  }

  lemma {:induction false} NothingOccursInEmpty(patterns: seq<string>)
    requires forall i :: 0 <= i < |patterns| ==> |patterns[i]| > 0
    ensures !MentionsAny("", patterns)
    decreases |patterns|
  {
    if |patterns| > 0 {
      EmptyContainsNothing(patterns[0]);
      NothingOccursInEmpty(patterns[1..]);
    }
  }

  /** A deprecation notice for `open_now` is dropped by both filters. */
  lemma OpenNowDropped(rest: seq<Arg>)
    ensures Suppressed(Warn, [Value("open_now is deprecated")] + rest)
    ensures Suppressed(Error, [Value("open_now is deprecated")] + rest)
  {
    var m := "open_now is deprecated";
    assert Message([Value(m)] + rest) == m;
    assert StartsWith(m, m);
    assert Contains(m, m);
    MentionsAnyIff(m, WarnPatterns);
    MentionsAnyIff(m, ErrorPatterns);
    assert WarnPatterns[5] == m;
    assert ErrorPatterns[0] == m;
  }
}

=== FILE: js_text.dfy ===
/** String behaviour of JavaScript that the components rely on: truthiness of
    optional strings, the `a || b || ''` idiom, template interpolation of
    possibly-undefined values, `String.prototype.includes`, and splitting a
    message into its lines. */
module JsText {
  import opened Wrappers

  /** An optional string is truthy exactly when it is present and non-empty. */
  predicate Truthy(s: Option<string>) {
    s.Some? && |s.value| > 0
  }

  /** `xs[0] || xs[1] || ... || ''`: the first truthy string, else the empty string. */
  function FirstNonEmpty(xs: seq<Option<string>>): (r: string)
    ensures r == "" <==> forall i :: 0 <= i < |xs| ==> !Truthy(xs[i])
    ensures r != "" ==>
              exists i :: 0 <= i < |xs| && Truthy(xs[i]) && xs[i].value == r &&
                          forall j :: 0 <= j < i ==> !Truthy(xs[j])
  {
    if |xs| == 0 then ""
    else if Truthy(xs[0]) then xs[0].value
    else
      var r := FirstNonEmpty(xs[1..]);
      assert forall i :: 1 <= i < |xs| ==> xs[i] == xs[1..][i - 1];
      r
  }

  /** The first truthy of three candidates, case by case. */
  lemma FirstOfThree(a: Option<string>, b: Option<string>, c: Option<string>)
    ensures FirstNonEmpty([a, b, c]) ==
              if Truthy(a) then a.value
              else if Truthy(b) then b.value
              else if Truthy(c) then c.value
              else ""
  {
    assert [a, b, c][1..] == [b, c];
    FirstOfTwo(b, c);
  }

  /** The first truthy of two candidates, case by case. */
  lemma FirstOfTwo(a: Option<string>, b: Option<string>)
    ensures FirstNonEmpty([a, b]) ==
              if Truthy(a) then a.value
              else if Truthy(b) then b.value
              else ""
  {
    assert [a, b][1..] == [b];
    assert [b][1..] == [];
  }

  /** `${s}` in a template literal: an absent value prints as "undefined". */
  function Show(s: Option<string>): string {
    match s
    case Some(v) => v
    case None => "undefined"
  }

  /** `s || '--'`: the placeholder shown for a missing or empty trip field. */
  function OrDash(s: Option<string>): (r: string)
    ensures r == "--" <==> !Truthy(s) || s.value == "--"
    ensures Truthy(s) ==> r == s.value
  {
    if Truthy(s) then s.value else "--"
  }

  predicate StartsWith(s: string, prefix: string) {
    |prefix| <= |s| && s[..|prefix|] == prefix
  }

  /** `s.includes(sub)`, written as a scan over the suffixes of `s`. */
  predicate Contains(s: string, sub: string)
    decreases |s|
  {
    StartsWith(s, sub) || (|s| > 0 && Contains(s[1..], sub))
  }

  /** `sub` occurs in `s` starting at position `i`. */
  ghost predicate OccursAt(s: string, sub: string, i: int) {
    0 <= i && i + |sub| <= |s| && s[i..i + |sub|] == sub
  }

  /** Where the suffix scan succeeds, `sub` occurs at some position. */
  lemma {:induction false} OccursWhenContains(s: string, sub: string)
    requires Contains(s, sub)
    ensures exists i :: OccursAt(s, sub, i)
    decreases |s|
  {
    if StartsWith(s, sub) {
      assert OccursAt(s, sub, 0);
    } else {
      OccursWhenContains(s[1..], sub);
      var i :| OccursAt(s[1..], sub, i);
      assert s[1..][i..i + |sub|] == s[i + 1..i + 1 + |sub|];
      assert OccursAt(s, sub, i + 1);
    }
  }

  /** An occurrence at position `i` is found by the suffix scan. */
  lemma {:induction false} ContainsWhenOccurs(s: string, sub: string, i: int)
    requires OccursAt(s, sub, i)
    ensures Contains(s, sub)
    decreases i
  {
    if i == 0 {
      assert StartsWith(s, sub);
    } else {
      assert s[1..][i - 1..i - 1 + |sub|] == s[i..i + |sub|];
      ContainsWhenOccurs(s[1..], sub, i - 1);
    }
  }

  /** The suffix scan finds `sub` exactly when it occurs at some position. */
  lemma ContainsIffOccurs(s: string, sub: string)
    ensures Contains(s, sub) <==> exists i :: OccursAt(s, sub, i)
  {
    if Contains(s, sub) {
      OccursWhenContains(s, sub);
    }
    forall i | OccursAt(s, sub, i)
      ensures Contains(s, sub)
    {
      ContainsWhenOccurs(s, sub, i);
    }
  }

  /** No non-empty pattern occurs in the empty string. */
  lemma EmptyContainsNothing(sub: string)
    requires |sub| > 0
    ensures !Contains("", sub)
  {
  }

  /** Position of the first `c` in `s`, or `|s|` when there is none. */
  function IndexOf(s: string, c: char): (r: nat)
    ensures r <= |s|
    ensures r < |s| ==> s[r] == c
    ensures forall k :: 0 <= k < r ==> s[k] != c
  {
    if |s| == 0 then 0
    else if s[0] == c then 0
    else 1 + IndexOf(s[1..], c)
  }

  /** The lines of `s`, as `s.split('\n')` returns them. */
  function Lines(s: string): (r: seq<string>)
    ensures |r| >= 1
    decreases |s|
  {
    var i := IndexOf(s, '\n');
    if i == |s| then [s] else [s[..i]] + Lines(s[i + 1..])
  }

  /** A string without a line break is a single line. */
  lemma SingleLine(s: string)
    requires '\n' !in s
    ensures Lines(s) == [s]
  {
  }

  /** Joining a line-break-free `a` to `b` with a line break puts `a` in front of the lines of `b`. */
  lemma LinesCons(a: string, b: string)
    requires '\n' !in a
    ensures Lines(a + "\n" + b) == [a] + Lines(b)
  {
    var s := a + "\n" + b;
    var i := IndexOf(s, '\n');
    assert s[|a|] == '\n';
    assert i == |a|;
    assert s[..i] == a;
    assert s[i + 1..] == b;
  }

  /** Three line-break-free strings joined by line breaks split back into themselves. */
  lemma ThreeLines(a: string, b: string, c: string)
    requires '\n' !in a && '\n' !in b && '\n' !in c
    ensures Lines(a + "\n" + b + "\n" + c) == [a, b, c]
  {
    var bc := b + "\n" + c;
    assert a + "\n" + b + "\n" + c == a + "\n" + bc;
    SingleLine(c);
    LinesCons(b, c);
    assert Lines(bc) == [b, c];
    LinesCons(a, bc);
  }
}

=== FILE: midpoint.dfy ===
/** The midpoint-on-route computation of `calculateMidpoint`: pick the cost
    field by mode, walk the steps of the first leg accumulating the defined
    costs, stop at the first step whose end reaches half the leg total, and
    read a point of that step's path at the proportional index; when no step
    reaches the target, fall back to the last point of the last step.

    Costs are whole seconds or metres, so the half-total target is handled by
    doubling: a step crosses when `2 * (running + cost) >= total`, and the
    index `floor(len * (total/2 - running) / cost)` is the exact integer
    quotient `len * (total - 2 * running) / (2 * cost)`. */
module Midpoint {
  import opened Wrappers
  import opened Place

  /** `'time'` selects durations; the other mode selects distances. */
  datatype Mode = Time | Distance

  /** A step of a leg: its optional duration and distance values and its path. */
  datatype Step = Step(duration: Option<nat>, distance: Option<nat>, path: seq<LatLng>)

  datatype Leg = Leg(duration: Option<nat>, distance: Option<nat>, steps: seq<Step>)

  datatype Route = Route(legs: seq<Leg>)

  /** Why the computation throws; every one of these surfaces as the same route error. */
  datatype RouteFault =
    | NoTotal          // the leg has no value for the selected cost field
    | NoPointAtIndex   // the computed index does not name a point of the step's path
    | NoLastStep       // the fallback reads the last step of an empty step list
    | EmptyLastPath    // the fallback reads the last point of an empty path

  function StepCost(mode: Mode, s: Step): Option<nat> {
    if mode == Time then s.duration else s.distance
  }

  function LegTotal(mode: Mode, leg: Leg): Option<nat> {
    if mode == Time then leg.duration else leg.distance
  }

  /** What a step adds to the running sum: its cost, or 0 when the cost is missing. */
  function CostOrZero(mode: Mode, s: Step): nat {
    match StepCost(mode, s)
    case None => 0
    case Some(c) => c
  }

  /** Sum of the defined costs of `steps`. */
  function DefinedSum(mode: Mode, steps: seq<Step>): nat {
    if |steps| == 0 then 0
    else DefinedSum(mode, steps[..|steps| - 1]) + CostOrZero(mode, steps[|steps| - 1])
  }

  lemma DefinedSumNext(mode: Mode, steps: seq<Step>, i: nat)
    requires i < |steps|
    ensures DefinedSum(mode, steps[..i + 1]) == DefinedSum(mode, steps[..i]) + CostOrZero(mode, steps[i])
  {
    assert steps[..i + 1][..i] == steps[..i];
  }

  /** Step `j` has a defined cost and the walk, arriving at it with the defined
      costs of all earlier steps, reaches half the total within it. */
  predicate CrossesAt(mode: Mode, total: nat, steps: seq<Step>, j: int) {
    && 0 <= j < |steps|
    && StepCost(mode, steps[j]).Some?
    && 2 * (DefinedSum(mode, steps[..j]) + StepCost(mode, steps[j]).value) >= total
  }

  /** The step the walk stops at, with the running sum before it and its cost. */
  datatype Crossing = Crossed(index: nat, running: nat, cost: nat) | NoCrossing

  /** `w` is the first crossing of `steps`, or there is none. */
  predicate IsFirstCrossing(mode: Mode, total: nat, steps: seq<Step>, w: Crossing) {
    match w
    case Crossed(k, r, c) =>
      && CrossesAt(mode, total, steps, k)
      && StepCost(mode, steps[k]) == Some(c)
      && r == DefinedSum(mode, steps[..k])
      && forall j :: 0 <= j < k ==> !CrossesAt(mode, total, steps, j)
    case NoCrossing =>
      forall j :: 0 <= j < |steps| ==> !CrossesAt(mode, total, steps, j)
  }

  /** The walk from step `i` on, having accumulated `running` so far. */
  function WalkFrom(mode: Mode, total: nat, steps: seq<Step>, i: nat, running: nat): (w: Crossing)
    requires i <= |steps|
    requires running == DefinedSum(mode, steps[..i])
    requires forall j :: 0 <= j < i ==> !CrossesAt(mode, total, steps, j)
    ensures IsFirstCrossing(mode, total, steps, w)
    decreases |steps| - i
  {
    if i == |steps| then NoCrossing
    else
      DefinedSumNext(mode, steps, i);
      match StepCost(mode, steps[i])
      case None => WalkFrom(mode, total, steps, i + 1, running)
      case Some(c) =>
        if 2 * (running + c) >= total then Crossed(i, running, c)
        else WalkFrom(mode, total, steps, i + 1, running + c)
  }

  function FindCrossing(mode: Mode, total: nat, steps: seq<Step>): (w: Crossing)
    ensures IsFirstCrossing(mode, total, steps, w)
  {
    WalkFrom(mode, total, steps, 0, 0)
  }

  /** The first crossing is unique, so any walk meeting `IsFirstCrossing` agrees with `FindCrossing`. */
  lemma FirstCrossingUnique(mode: Mode, total: nat, steps: seq<Step>, w1: Crossing, w2: Crossing)
    requires IsFirstCrossing(mode, total, steps, w1)
    requires IsFirstCrossing(mode, total, steps, w2)
    ensures w1 == w2
  {
    if w1.Crossed? {
      assert CrossesAt(mode, total, steps, w1.index);
    }
    if w2.Crossed? {
      assert CrossesAt(mode, total, steps, w2.index);
    }
  }

  /** The `for (const step of leg.steps)` loop, with its `continue` and `break`. */
  method Walk(mode: Mode, total: nat, steps: seq<Step>) returns (w: Crossing)
    ensures IsFirstCrossing(mode, total, steps, w)
    ensures w == FindCrossing(mode, total, steps)
  {
    var running := 0;
    w := NoCrossing;
    for i := 0 to |steps|
      invariant running == DefinedSum(mode, steps[..i])
      invariant forall j :: 0 <= j < i ==> !CrossesAt(mode, total, steps, j)
    {
      DefinedSumNext(mode, steps, i);
      var stepValue := StepCost(mode, steps[i]);
      if stepValue.None? {
        continue;
      }
      if 2 * (running + stepValue.value) >= total {
        w := Crossed(i, running, stepValue.value);
        break;
      }
      running := running + stepValue.value;
    }
    FirstCrossingUnique(mode, total, steps, w, FindCrossing(mode, total, steps));
  }

  /** The running sum never passes the target before the walk stops. */
  lemma {:induction false} RunningWithinTarget(mode: Mode, total: nat, steps: seq<Step>, i: nat)
    requires i <= |steps|
    requires forall j :: 0 <= j < i ==> !CrossesAt(mode, total, steps, j)
    ensures 2 * DefinedSum(mode, steps[..i]) <= total
  {
    if i > 0 {
      RunningWithinTarget(mode, total, steps, i - 1);
      DefinedSumNext(mode, steps, i - 1);
      assert !CrossesAt(mode, total, steps, i - 1);
    }
  }

  /** At the crossing step, half the total lies between the running sum and the running sum plus the step's cost. */
  lemma CrossingBracketsTarget(mode: Mode, total: nat, steps: seq<Step>)
    requires FindCrossing(mode, total, steps).Crossed?
    ensures var w := FindCrossing(mode, total, steps);
            2 * w.running <= total <= 2 * (w.running + w.cost)
  {
    var w := FindCrossing(mode, total, steps);
    RunningWithinTarget(mode, total, steps, w.index);
  }

  /** `Math.floor(path.length * ratio)` with `ratio = (total/2 - running) / cost`;
      `None` when the cost is zero, where the ratio is NaN or infinite and no
      index names a point. */
  function StepIndex(len: nat, total: nat, running: nat, cost: nat): Option<int> {
    if cost == 0 then None else Some((len * (total - 2 * running)) / (2 * cost))
  }

  /** `path[index]`, or `None` where JavaScript yields `undefined`. */
  function PointAt(path: seq<LatLng>, index: Option<int>): (p: Option<LatLng>)
    ensures p.Some? <==> index.Some? && 0 <= index.value < |path|
    ensures p.Some? ==> p.value == path[index.value]
  {
    match index
    case Some(i) => if 0 <= i < |path| then Some(path[i]) else None
    case None => None
  }

  /** When no step crosses: the last point of the last step. */
  function Fallback(steps: seq<Step>): (r: Result<LatLng, RouteFault>)
    ensures r.Ok? <==> |steps| > 0 && |steps[|steps| - 1].path| > 0
    ensures r.Ok? ==> var path := steps[|steps| - 1].path; r.value == path[|path| - 1]
  {
    if |steps| == 0 then Err(NoLastStep)
    else
      var path := steps[|steps| - 1].path;
      if |path| == 0 then Err(EmptyLastPath) else Ok(path[|path| - 1])
  }

  /** The midpoint of a leg as the code computes it. */
  function LocateMidpoint(mode: Mode, leg: Leg): (r: Result<LatLng, RouteFault>)
    ensures r == Err(NoTotal) <==> LegTotal(mode, leg).None?
    ensures r == Err(NoPointAtIndex) ==>
              LegTotal(mode, leg).Some? && FindCrossing(mode, LegTotal(mode, leg).value, leg.steps).Crossed?
    ensures r.Ok? ==> exists i :: 0 <= i < |leg.steps| && r.value in leg.steps[i].path
  {
    match LegTotal(mode, leg)
    case None => Err(NoTotal)
    case Some(total) =>
      match FindCrossing(mode, total, leg.steps)
      case NoCrossing => Fallback(leg.steps)
      case Crossed(k, running, cost) =>
        var path := leg.steps[k].path;
        match PointAt(path, StepIndex(|path|, total, running, cost))
        case Some(p) => Ok(p)
        case None => Err(NoPointAtIndex)
  }

  lemma MulMonotone(k: nat, a: int, b: int)
    ensures a <= b ==> k * a <= k * b
  {
    assert k * b - k * a == k * (b - a);
  }

  /** Below a multiple of `d`, the quotient by `d` stays below the factor. */
  lemma QuotientBelow(x: nat, len: nat, d: int)
    requires d > 0 && x < len * d
    ensures x / d < len
  {
    var q := x / d;
    assert q * d <= x;
    MulMonotone(d, len, q);
    assert d * len == len * d && d * q == q * d;
  }

  /** A multiple of `d` divided by `d` gives back its factor. */
  lemma QuotientOfMultiple(len: nat, d: int)
    requires d > 0
    ensures (len * d) / d == len
  {
    var q := (len * d) / d;
    assert q * d <= len * d < q * d + d;
    QuotientBelow(len * d, len + 1, d);
    MulMonotone(d, q + 1, len);
    assert d * (q + 1) == q * d + d && d * len == len * d;
  }

  /** With `0 <= n <= d` and `d > 0`, `len * n / d` lies in `[0, len]` and
      reaches `len` only when `len == 0` or `n == d`. */
  lemma ScaledQuotientBounds(len: nat, n: int, d: int)
    requires 0 <= n <= d && d > 0
    ensures 0 <= (len * n) / d <= len
    ensures (len * n) / d == len <==> len == 0 || n == d
  {
    var x := len * n;
    MulMonotone(len, n, d);
    QuotientOfMultiple(len, d);
    if x < len * d {
      QuotientBelow(x, len, d);
    }
    if len > 0 && n < d {
      MulMonotone(len, n, d - 1);
      assert len * (d - 1) == len * d - len;
      QuotientBelow(x, len, d);
    }
  }

  lemma StrictQuotientBelow(len: nat, n: int, d: int)
    ensures len > 0 && 0 <= n < d ==> 0 <= (len * n) / d < len
  {
    if len > 0 && 0 <= n < d {
      ScaledQuotientBounds(len, n, d);
    }
  }

  /** The index at the crossing step lies in `[0, path.length]`, and equals
      `path.length` exactly when the path is empty or the step ends precisely
      at the target. */
  lemma CrossingIndexBounds(len: nat, total: nat, running: nat, cost: nat)
    requires cost > 0
    requires 2 * running <= total <= 2 * (running + cost)
    ensures StepIndex(len, total, running, cost).Some?
    ensures var i := StepIndex(len, total, running, cost).value;
            && 0 <= i <= len
            && (i == len <==> len == 0 || total == 2 * (running + cost))
  {
    ScaledQuotientBounds(len, total - 2 * running, 2 * cost);
  }

  /** At a crossing, the call fails exactly when the chosen step's path is
      empty or the running sum plus the step's cost equals half the total
      (which covers a zero-cost step, whose ratio is NaN); otherwise the
      midpoint is the point at the proportional index of that path. */
  lemma LocateAtCrossing(mode: Mode, leg: Leg)
    requires LegTotal(mode, leg).Some?
    requires FindCrossing(mode, LegTotal(mode, leg).value, leg.steps).Crossed?
    ensures var total := LegTotal(mode, leg).value;
            var w := FindCrossing(mode, total, leg.steps);
            var path := leg.steps[w.index].path;
            && (LocateMidpoint(mode, leg).Err? <==> |path| == 0 || total == 2 * (w.running + w.cost))
            && (LocateMidpoint(mode, leg).Ok? ==>
                  && w.cost > 0
                  && LocateMidpoint(mode, leg).value == path[(|path| * (total - 2 * w.running)) / (2 * w.cost)])
  {
    var total := LegTotal(mode, leg).value;
    var w := FindCrossing(mode, total, leg.steps);
    CrossingBracketsTarget(mode, total, leg.steps);
    if w.cost > 0 {
      CrossingIndexBounds(|leg.steps[w.index].path|, total, w.running, w.cost);
    }
  }

  /** When no step reaches the target, the result is the fallback: the last
      point of the last step, or a failure when there is no such point. */
  lemma LocateWithoutCrossing(mode: Mode, leg: Leg)
    requires LegTotal(mode, leg).Some?
    requires forall j :: 0 <= j < |leg.steps| ==> !CrossesAt(mode, LegTotal(mode, leg).value, leg.steps, j)
    ensures LocateMidpoint(mode, leg) == Fallback(leg.steps)
  {
    var total := LegTotal(mode, leg).value;
    FirstCrossingUnique(mode, total, leg.steps, NoCrossing, FindCrossing(mode, total, leg.steps));
  }

  /** A leg whose steps all lack the selected cost falls back to its last
      point; a leg with no steps at all fails. */
  lemma AllCostsMissingFallsBack(mode: Mode, leg: Leg)
    requires LegTotal(mode, leg).Some?
    requires forall j :: 0 <= j < |leg.steps| ==> StepCost(mode, leg.steps[j]).None?
    ensures LocateMidpoint(mode, leg) == Fallback(leg.steps)
    ensures |leg.steps| == 0 ==> LocateMidpoint(mode, leg) == Err(NoLastStep)
  {
    LocateWithoutCrossing(mode, leg);
  }

  /** Whatever the route, a computed midpoint is a point of one of the leg's
      step paths, never an interpolation between points. */
  lemma MidpointOnRoute(mode: Mode, leg: Leg)
    requires LocateMidpoint(mode, leg).Ok?
    ensures exists k :: 0 <= k < |leg.steps| && LocateMidpoint(mode, leg).value in leg.steps[k].path
  {
    var total := LegTotal(mode, leg).value;
    var w := FindCrossing(mode, total, leg.steps);
    if w.Crossed? {
      var path := leg.steps[w.index].path;
      var i := StepIndex(|path|, total, w.running, w.cost).value;
      assert path[i] in path;
    } else {
      var path := leg.steps[|leg.steps| - 1].path;
      assert path[|path| - 1] in path;
    }
  }

  /** Two step lists that agree, step by step, on the selected cost and on the path. */
  predicate SameCosts(mode: Mode, s1: seq<Step>, s2: seq<Step>) {
    && |s1| == |s2|
    && forall i :: 0 <= i < |s1| ==> StepCost(mode, s1[i]) == StepCost(mode, s2[i]) && s1[i].path == s2[i].path
  }

  lemma {:induction false} SameCostsSameSums(mode: Mode, s1: seq<Step>, s2: seq<Step>, n: nat)
    requires SameCosts(mode, s1, s2)
    requires n <= |s1|
    ensures DefinedSum(mode, s1[..n]) == DefinedSum(mode, s2[..n])
  {
    if n > 0 {
      SameCostsSameSums(mode, s1, s2, n - 1);
      DefinedSumNext(mode, s1, n - 1);
      DefinedSumNext(mode, s2, n - 1);
    }
  }

  /** The mode decides everything: the midpoint depends only on the selected
      cost field of the leg and of each step (durations for `'time'`,
      distances otherwise) and on the paths. */
  lemma ModeReadsOnlyItsCostField(mode: Mode, l1: Leg, l2: Leg)
    requires LegTotal(mode, l1) == LegTotal(mode, l2)
    requires SameCosts(mode, l1.steps, l2.steps)
    ensures LocateMidpoint(mode, l1) == LocateMidpoint(mode, l2)
  {
    if LegTotal(mode, l1).Some? {
      var total := LegTotal(mode, l1).value;
      forall j | 0 <= j < |l1.steps|
        ensures CrossesAt(mode, total, l1.steps, j) == CrossesAt(mode, total, l2.steps, j)
      {
        SameCostsSameSums(mode, l1.steps, l2.steps, j);
      }
      var w1 := FindCrossing(mode, total, l1.steps);
      if w1.Crossed? {
        SameCostsSameSums(mode, l1.steps, l2.steps, w1.index);
      }
      FirstCrossingUnique(mode, total, l2.steps, w1, FindCrossing(mode, total, l2.steps));
    }
  }

  /** Route with two steps of 600 s and 400 s (total 1000 s) in time mode:
      the first step already reaches 500 s, at ratio 5/6, so on a six-point
      path the midpoint is the point at index 5 of the first step. */
  lemma SixHundredFourHundredExample(p: seq<LatLng>, q: seq<LatLng>)
    requires |p| == 6 && |q| > 0
    ensures LocateMidpoint(Time, Leg(Some(1000), None, [Step(Some(600), None, p), Step(Some(400), None, q)])) == Ok(p[5])
  {
    var steps := [Step(Some(600), None, p), Step(Some(400), None, q)];
    assert steps[..0] == [];
    assert IsFirstCrossing(Time, 1000, steps, Crossed(0, 0, 600));
    FirstCrossingUnique(Time, 1000, steps, Crossed(0, 0, 600), FindCrossing(Time, 1000, steps));
  }

  /** As written, a leg made of two steps of equal cost fails: the first step
      ends exactly at the target, the ratio is 1 and the index is one past the
      last point of its path. */
  lemma EqualHalvesFail(p: seq<LatLng>, q: seq<LatLng>)
    requires |p| > 0 && |q| > 0
    ensures LocateMidpoint(Time, Leg(Some(4), None, [Step(Some(2), None, p), Step(Some(2), None, q)])) == Err(NoPointAtIndex)
  {
    var steps := [Step(Some(2), None, p), Step(Some(2), None, q)];
    assert steps[..0] == [];
    assert IsFirstCrossing(Time, 4, steps, Crossed(0, 0, 2));
    FirstCrossingUnique(Time, 4, steps, Crossed(0, 0, 2), FindCrossing(Time, 4, steps));
  }

  /** The index within a non-empty crossing path with the ratio clamped to
      `[0, 1]`: one past the end becomes the last point, and a zero-cost step
      (NaN ratio) reads its first point. */
  function ClampedIndex(len: nat, total: nat, running: nat, cost: nat): (i: nat)
    requires len > 0
    ensures i < len
    ensures cost > 0 && 2 * running <= total < 2 * (running + cost) ==>
              i == (len * (total - 2 * running)) / (2 * cost)
  {
    if cost == 0 || total < 2 * running then 0
    else
      var n := total - 2 * running;
      var d := 2 * cost;
      var raw := (len * n) / d;
      StrictQuotientBelow(len, n, d);
      if 0 <= raw < len then raw else len - 1
  }

  /** The midpoint with the index clamped into the crossing step's path. */
  function LocateMidpointClamped(mode: Mode, leg: Leg): (r: Result<LatLng, RouteFault>)
    ensures r == Err(NoTotal) <==> LegTotal(mode, leg).None?
    ensures r == Err(NoPointAtIndex) ==>
              && LegTotal(mode, leg).Some?
              && var w := FindCrossing(mode, LegTotal(mode, leg).value, leg.steps);
                 w.Crossed? && |leg.steps[w.index].path| == 0
    ensures r.Ok? ==> exists i :: 0 <= i < |leg.steps| && r.value in leg.steps[i].path
  {
    match LegTotal(mode, leg)
    case None => Err(NoTotal)
    case Some(total) =>
      match FindCrossing(mode, total, leg.steps)
      case NoCrossing => Fallback(leg.steps)
      case Crossed(k, running, cost) =>
        var path := leg.steps[k].path;
        if |path| == 0 then Err(NoPointAtIndex)
        else Ok(path[ClampedIndex(|path|, total, running, cost)])
  }

  /** With the clamp, a crossing fails only when its step has no path points
      at all, and the midpoint is then a point of the crossing step. */
  lemma ClampedCrossingInPath(mode: Mode, leg: Leg)
    requires LegTotal(mode, leg).Some?
    requires FindCrossing(mode, LegTotal(mode, leg).value, leg.steps).Crossed?
    ensures var w := FindCrossing(mode, LegTotal(mode, leg).value, leg.steps);
            var path := leg.steps[w.index].path;
            && (LocateMidpointClamped(mode, leg).Ok? <==> |path| > 0)
            && (LocateMidpointClamped(mode, leg).Ok? ==> LocateMidpointClamped(mode, leg).value in path)
  {
    var w := FindCrossing(mode, LegTotal(mode, leg).value, leg.steps);
    var path := leg.steps[w.index].path;
    if |path| > 0 {
      var i := ClampedIndex(|path|, LegTotal(mode, leg).value, w.running, w.cost);
      assert path[i] in path;
    }
  }

  /** The clamp changes nothing where the code as written succeeds. */
  lemma ClampedAgreesWhereSourceSucceeds(mode: Mode, leg: Leg)
    requires LocateMidpoint(mode, leg).Ok?
    ensures LocateMidpointClamped(mode, leg) == LocateMidpoint(mode, leg)
  {
    var total := LegTotal(mode, leg).value;
    if FindCrossing(mode, total, leg.steps).Crossed? {
      LocateAtCrossing(mode, leg);
      CrossingBracketsTarget(mode, total, leg.steps);
    }
  }

  /** The two-equal-steps leg that fails as written gets the last point of its first step. */
  lemma EqualHalvesClamped(p: seq<LatLng>, q: seq<LatLng>)
    requires |p| > 0 && |q| > 0
    ensures LocateMidpointClamped(Time, Leg(Some(4), None, [Step(Some(2), None, p), Step(Some(2), None, q)])) == Ok(p[|p| - 1])
  {
    var steps := [Step(Some(2), None, p), Step(Some(2), None, q)];
    assert steps[..0] == [];
    assert IsFirstCrossing(Time, 4, steps, Crossed(0, 0, 2));
    FirstCrossingUnique(Time, 4, steps, Crossed(0, 0, 2), FindCrossing(Time, 4, steps));
    QuotientOfMultiple(|p|, 4);
  }
}

=== FILE: midpoint_calc.dfy ===
/** The `{result, loading, error}` state of the midpoint hook and the way one
    call of `calculateMidpoint` moves it: the two early rejections, the start
    of a directions request, and the four ways the awaited response ends
    (a located midpoint, a thrown error, a rejected request, no route). */
module MidpointCalc {
  import opened Wrappers
  import opened Place
  import opened Midpoint

  /** The directions service's answer: a list of routes. */
  datatype Directions = Directions(routes: seq<Route>)

  datatype MidpointResult = MidpointResult(midpoint: LatLng, route: Directions, timeBased: bool)

  datatype CalcState = CalcState(result: Option<MidpointResult>, loading: bool, error: Option<string>)

  const Initial := CalcState(None, false, None)

  const MapsNotLoaded := "Google Maps not loaded yet. Please wait a moment and try again."
  const MissingLocation := "Address missing location data. Please reselect addresses."
  const RouteFailed := "Failed to calculate route. Please try again."

  /** The state right after the synchronous part of a call, and whether a directions request went out. */
  datatype Started = Started(state: CalcState, requested: bool)

  /** The synchronous part of `calculateMidpoint`: the two guards, then loading on and error cleared. */
  function Begin(s: CalcState, mapsLoaded: bool, origin: Place, destination: Place): (st: Started)
    ensures st.requested <==> mapsLoaded && origin.location.Some? && destination.location.Some?
    ensures st.state.result == s.result
    ensures st.requested ==> st.state.loading && st.state.error.None?
    ensures !st.requested ==> st.state.loading == s.loading
    ensures !mapsLoaded ==> st.state.error == Some(MapsNotLoaded)
    ensures mapsLoaded && !st.requested ==> st.state.error == Some(MissingLocation)
  {
    if !mapsLoaded then Started(s.(error := Some(MapsNotLoaded)), false)
    else if origin.location.None? || destination.location.None? then Started(s.(error := Some(MissingLocation)), false)
    else Started(s.(loading := true, error := None), true)
  }

  /** How the awaited directions request settled. */
  datatype DirectionsOutcome = RouteRejected | RouteResolved(directions: Directions)

  /** What the body of the `try` block makes of the outcome. */
  datatype Verdict = Located(found: MidpointResult) | Threw | NoRoute

  function Evaluate(mode: Mode, outcome: DirectionsOutcome): (v: Verdict)
    ensures v.Located? ==>
              && outcome.RouteResolved?
              && v.found.route == outcome.directions
              && |outcome.directions.routes| > 0 && |outcome.directions.routes[0].legs| > 0
              && LocateMidpoint(mode, outcome.directions.routes[0].legs[0]) == Ok(v.found.midpoint)
    ensures v.NoRoute? <==>
              outcome.RouteResolved? &&
              (|outcome.directions.routes| == 0 || |outcome.directions.routes[0].legs| == 0)
    ensures outcome.RouteResolved? &&
            |outcome.directions.routes| > 0 && |outcome.directions.routes[0].legs| > 0 &&
            LocateMidpoint(mode, outcome.directions.routes[0].legs[0]).Ok? ==>
              v == Located(MidpointResult(LocateMidpoint(mode, outcome.directions.routes[0].legs[0]).value,
                                          outcome.directions, mode == Time))
  {
    match outcome
    case RouteRejected => Threw
    case RouteResolved(d) =>
      if |d.routes| > 0 && |d.routes[0].legs| > 0 then
        match LocateMidpoint(mode, d.routes[0].legs[0])
        case Ok(p) => Located(MidpointResult(p, d, mode == Time))
        case Err(_) => Threw
      else NoRoute
  }

  /** The asynchronous part: the `try`/`catch`/`finally` around the response. */
  function Complete(s: CalcState, mode: Mode, outcome: DirectionsOutcome): (t: CalcState)
    ensures !t.loading
    ensures t.result != s.result ==> Evaluate(mode, outcome).Located?
    ensures Evaluate(mode, outcome).Located? ==> t.result == Some(Evaluate(mode, outcome).found)
    ensures Evaluate(mode, outcome).Threw? ==> t.error == Some(RouteFailed)
    ensures !Evaluate(mode, outcome).Threw? ==> t.error == s.error
  {
    match Evaluate(mode, outcome)
    case Located(m) => s.(result := Some(m), loading := false)
    case Threw => s.(error := Some(RouteFailed), loading := false)
    case NoRoute => s.(loading := false)
  }

  /** A stored result's midpoint is a point of the stored route's first leg,
      and its `timeBased` flag records whether time mode was used. */
  lemma StoredResultOnRoute(s: CalcState, mode: Mode, outcome: DirectionsOutcome)
    requires Complete(s, mode, outcome).result != s.result
    ensures var m := Complete(s, mode, outcome).result.value;
            var leg := m.route.routes[0].legs[0];
            && (m.timeBased <==> mode == Time)
            && exists k :: 0 <= k < |leg.steps| && m.midpoint in leg.steps[k].path
  {
    var d := outcome.directions;
    MidpointOnRoute(mode, d.routes[0].legs[0]);
  }

  /** A first leg whose crossing step ends exactly at half the total ends
      the call in the route error, with the previous result kept. */
  lemma BoundaryCrossingReportsRouteError(s: CalcState, mode: Mode, d: Directions)
    requires |d.routes| > 0 && |d.routes[0].legs| > 0
    requires var leg := d.routes[0].legs[0];
             && LegTotal(mode, leg).Some?
             && var w := FindCrossing(mode, LegTotal(mode, leg).value, leg.steps);
                w.Crossed? && LegTotal(mode, leg).value == 2 * (w.running + w.cost)
    ensures Complete(s, mode, RouteResolved(d)) == CalcState(s.result, false, Some(RouteFailed))
  {
    LocateAtCrossing(mode, d.routes[0].legs[0]);
  }

  /** One click's worth of `calculateMidpoint`: the environment and the response it meets. */
  datatype Attempt = Attempt(
    mapsLoaded: bool,
    origin: Place,
    destination: Place,
    mode: Mode,
    outcome: DirectionsOutcome)

  function Calculate(s: CalcState, a: Attempt): (t: CalcState)
    ensures Produced(a).Some? ==> t.result == Produced(a) && t.error.None? && !t.loading
    ensures Produced(a).None? ==> t.result == s.result
    ensures a.mapsLoaded && a.origin.location.Some? && a.destination.location.Some? ==> !t.loading
  {
    var st := Begin(s, a.mapsLoaded, a.origin, a.destination);
    if st.requested then Complete(st.state, a.mode, a.outcome) else st.state
  }

  /** Attempts one after another; the button is disabled while one is loading, so they do not overlap. */
  function Run(s: CalcState, attempts: seq<Attempt>): CalcState
    decreases |attempts|
  {
    if |attempts| == 0 then s
    else Calculate(Run(s, attempts[..|attempts| - 1]), attempts[|attempts| - 1])
  }

  /** The result an attempt produces on its own, when it produces one. */
  function Produced(a: Attempt): Option<MidpointResult> {
    if a.mapsLoaded && a.origin.location.Some? && a.destination.location.Some? then
      match Evaluate(a.mode, a.outcome)
      case Located(m) => Some(m)
      case _ => None
    else None
  }

  /** The result of the most recent attempt that produced one. */
  function LastProduced(attempts: seq<Attempt>): Option<MidpointResult>
    decreases |attempts|
  {
    if |attempts| == 0 then None
    else if Produced(attempts[|attempts| - 1]).Some? then Produced(attempts[|attempts| - 1])
    else LastProduced(attempts[..|attempts| - 1])
  }

  /** Results are superseded, never merged: after any sequence of attempts the
      shown result is the one produced by the latest successful attempt, or
      the starting one when none succeeded; and loading is off again. */
  lemma {:induction false} LatestSuccessWins(s: CalcState, attempts: seq<Attempt>)
    requires !s.loading
    ensures Run(s, attempts).result == if LastProduced(attempts).Some? then LastProduced(attempts) else s.result
    ensures !Run(s, attempts).loading
    decreases |attempts|
  {
    if |attempts| > 0 {
      LatestSuccessWins(s, attempts[..|attempts| - 1]);
    }
  }
}

=== FILE: nearby_search.dfy ===
/** The places hook: `searchPlaces` rejects when the Places library is not
    loaded, otherwise turns loading on, clears the error and sends one
    nearby-search request; the callback turns loading off and either stores
    the results as returned or clears them and reports the category. */
module NearbySearch {
  import opened Wrappers
  import opened Place

  datatype PlacesState = PlacesState(places: seq<Place>, loading: bool, error: Option<string>)

  const Initial := PlacesState([], false, None)

  const NotReady := "Maps not ready. Please try again."
  const DefaultType := "restaurant"
  const DefaultRadius := 1000

  /** The `PlaceSearchRequest` sent to the nearby-search service. */
  datatype Request = Request(location: LatLng, radius: int, kind: string)

  datatype Sent = Sent(state: PlacesState, request: Option<Request>)

  /** `searchPlaces(location, type, radius)`, up to the service call. */
  function Search(s: PlacesState, libraryLoaded: bool, location: LatLng, kind: string, radius: int): (r: Sent)
    ensures !libraryLoaded ==> r == Sent(s.(error := Some(NotReady)), None)
    ensures libraryLoaded ==> r.state == s.(loading := true, error := None)
    ensures libraryLoaded ==> r.request == Some(Request(location, radius, kind))
  {
    if !libraryLoaded then Sent(s.(error := Some(NotReady)), None)
    else Sent(s.(loading := true, error := None), Some(Request(location, radius, kind)))
  }

  /** `searchPlaces(location)`: the defaults for the two optional parameters. */
  function SearchWithDefaults(s: PlacesState, libraryLoaded: bool, location: LatLng): (r: Sent)
    ensures libraryLoaded ==> r.request == Some(Request(location, 1000, "restaurant"))
  {
    Search(s, libraryLoaded, location, DefaultType, DefaultRadius)
  }

  datatype Status = OK | ZeroResults | OtherStatus

  const FailurePrefix := "Failed to find "
  const FailureSuffix := "s nearby."

  /** `` `Failed to find ${type}s nearby.` `` */
  function FailureMessage(kind: string): (m: string)
    ensures |m| == |kind| + 24
    ensures m[15..15 + |kind|] == kind
    ensures m[..|FailurePrefix|] == FailurePrefix && m[|FailurePrefix| + |kind|..] == FailureSuffix
  {
    FailurePrefix + kind + FailureSuffix
  }

  /** Reads the category back out of a failure message. */
  function KindOfFailure(message: string): Option<string> {
    if |message| >= |FailurePrefix| + |FailureSuffix|
       && message[..|FailurePrefix|] == FailurePrefix
       && message[|message| - |FailureSuffix|..] == FailureSuffix
    then Some(message[|FailurePrefix|..|message| - |FailureSuffix|])
    else None
  }

  /** The failure message names the category that was searched for. */
  lemma FailureMessageNamesKind(kind: string)
    ensures KindOfFailure(FailureMessage(kind)) == Some(kind)
  {
    var m := FailureMessage(kind);
    assert m[..15] == FailurePrefix;
    assert m[|m| - 9..] == FailureSuffix;
    assert m[15..|m| - 9] == kind;
  }

  /** The `nearbySearch` callback. */
  function Callback(s: PlacesState, kind: string, status: Status, results: Option<seq<Place>>): (t: PlacesState)
    ensures !t.loading
    ensures status == OK && results.Some? ==> t.places == results.value && t.error == s.error
    ensures !(status == OK && results.Some?) ==> t.places == [] && t.error.Some? && KindOfFailure(t.error.value) == Some(kind)
  {
    if status == OK && results.Some? then s.(loading := false, places := results.value)
    else
      FailureMessageNamesKind(kind);
      s.(loading := false, error := Some(FailureMessage(kind)), places := [])
  }

  /** A search followed by its callback, from any state: the list is the
      service's list in the service's order, or empty with the failure
      message; a zero-result answer is a failure too. */
  lemma SearchThenCallback(s: PlacesState, location: LatLng, kind: string, radius: int, status: Status, results: Option<seq<Place>>)
    ensures var t := Callback(Search(s, true, location, kind, radius).state, kind, status, results);
            && !t.loading
            && (status == OK && results.Some? ==> t.places == results.value && t.error.None?)
            && (!(status == OK && results.Some?) ==> t == PlacesState([], false, Some(FailureMessage(kind))))
  {
  }
}

=== FILE: place.dfy ===
/** The place record shared by the components (the Places library's
    `PlaceResult`, plus the four optional trip fields a card may carry), and
    the two renderings of a place that the venue list and the venue card share:
    the directions link and the per-field `'--'` placeholder. */
module Place {
  import opened Wrappers
  import opened JsText

  /** A `LatLngLiteral`: a plain pair of coordinates. */
  datatype LatLng = LatLng(lat: real, lng: real)

  /** One coordinate of a geometry location, which the code meets either as an
      accessor method (a `LatLng` object) or as a plain field (a literal). */
  datatype Coord = Accessor(get: real) | Field(value: real)

  datatype GeoLocation = GeoLocation(lat: Coord, lng: Coord)

  /** Travel distance and duration from each party, as display strings. */
  datatype TripInfo = TripInfo(
    distanceToA: Option<string>,
    durationToA: Option<string>,
    distanceToB: Option<string>,
    durationToB: Option<string>)

  datatype Place = Place(
    placeId: Option<string>,
    name: Option<string>,
    vicinity: Option<string>,
    formattedAddress: Option<string>,
    location: Option<GeoLocation>,
    trip: TripInfo)

  /** `typeof c === 'function' ? c() : c`. */
  function ReadCoord(c: Coord): real {
    match c
    case Accessor(v) => v
    case Field(v) => v
  }

  /** The literal the code builds from a geometry location before handing it on. */
  function ToLiteral(g: GeoLocation): (p: LatLng)
    ensures g.lat.Accessor? ==> p.lat == g.lat.get
    ensures g.lat.Field? ==> p.lat == g.lat.value
    ensures g.lng.Accessor? ==> p.lng == g.lng.get
    ensures g.lng.Field? ==> p.lng == g.lng.value
  {
    LatLng(ReadCoord(g.lat), ReadCoord(g.lng))
  }

  /** The Google Maps URL that the directions and search links extend. */
  const MapsBase := "https://www.google.com/maps/"
  const DirectionsPrefix := MapsBase + "dir/?api=1&destination="

  /** `vicinity || formatted_address || name || ''`. */
  function DirectionsTarget(p: Place): (r: string)
    ensures Truthy(p.vicinity) ==> r == p.vicinity.value
    ensures !Truthy(p.vicinity) && Truthy(p.formattedAddress) ==> r == p.formattedAddress.value
    ensures !Truthy(p.vicinity) && !Truthy(p.formattedAddress) && Truthy(p.name) ==> r == p.name.value
    ensures r == "" <==> !Truthy(p.vicinity) && !Truthy(p.formattedAddress) && !Truthy(p.name)
  {
    FirstOfThree(p.vicinity, p.formattedAddress, p.name);
    FirstNonEmpty([p.vicinity, p.formattedAddress, p.name])
  }

  /** The "Directions" link of a venue; `encode` is `encodeURIComponent`. */
  function DirectionsUrl(p: Place, encode: string -> string): (url: string)
    ensures StartsWith(url, DirectionsPrefix)
    ensures url[|DirectionsPrefix|..] == encode(DirectionsTarget(p))
  {
    DirectionsPrefix + encode(DirectionsTarget(p))
  }

  /** The four trip fields as a card or list entry shows them, each `field || '--'`. */
  function TripDisplay(t: TripInfo): (shown: seq<string>)
    ensures |shown| == 4
    ensures shown[0] == OrDash(t.durationToA) && shown[1] == OrDash(t.distanceToA)
    ensures shown[2] == OrDash(t.durationToB) && shown[3] == OrDash(t.distanceToB)
  {
    [OrDash(t.durationToA), OrDash(t.distanceToA), OrDash(t.durationToB), OrDash(t.distanceToB)]
  }

  /** No trip cell is ever blank: each shows its non-empty field or the placeholder. */
  lemma NoBlankTripCell(t: TripInfo)
    ensures forall i :: 0 <= i < |TripDisplay(t)| ==> |TripDisplay(t)[i]| > 0
  {
  }

  /** A trip with no data at all shows four placeholders. */
  lemma EmptyTripShowsDashes(t: TripInfo)
    requires !Truthy(t.distanceToA) && !Truthy(t.durationToA)
    requires !Truthy(t.distanceToB) && !Truthy(t.durationToB)
    ensures TripDisplay(t) == ["--", "--", "--", "--"]
  {
  }
}

=== FILE: place_card.dfy ===
/** A venue card's lazy trip-info loading: the card starts from the trip fields
    the place already carries, and while it is intersecting the viewport, not
    yet loaded and has a location, its effect asks for the distances from
    both origins; a resolved answer replaces the details and marks the card
    loaded. */
module PlaceCard {
  import opened Wrappers
  import opened JsText
  import opened Place

  datatype CardState = CardState(details: TripInfo, loaded: bool)

  /** The initial `useState` values. */
  function Init(p: Place): (s: CardState)
    ensures s.details == p.trip
    ensures s.loaded <==> Truthy(p.trip.distanceToA)
  {
    CardState(p.trip, Truthy(p.trip.distanceToA))
  }

  /** What can happen to a card: its effect runs (with the current
      intersection flag), or an outstanding distance request resolves or
      rejects. Responses may arrive in any order. */
  datatype CardEvent = EffectRun(intersecting: bool) | Resolved(info: TripInfo) | Rejected

  /** The new state, and the destination of a distance request if one is issued. */
  datatype CardStep = CardStep(state: CardState, request: Option<LatLng>)

  function Step(p: Place, s: CardState, e: CardEvent): (r: CardStep)
    ensures r.request.Some? <==> e.EffectRun? && e.intersecting && !s.loaded && p.location.Some?
    ensures r.request.Some? ==> r.request.value == ToLiteral(p.location.value)
    ensures e.Resolved? ==> r.state == CardState(e.info, true)
    ensures !e.Resolved? ==> r.state == s
  {
    match e
    case EffectRun(intersecting) =>
      if intersecting && !s.loaded && p.location.Some? then CardStep(s, Some(ToLiteral(p.location.value)))
      else CardStep(s, None)
    case Resolved(info) => CardStep(CardState(info, true), None)
    case Rejected => CardStep(s, None)
  }

  /** The state after a sequence of events. */
  function RunState(p: Place, s: CardState, events: seq<CardEvent>): CardState
    decreases |events|
  {
    if |events| == 0 then s else RunState(p, Step(p, s, events[0]).state, events[1..])
  }

  /** How many distance requests a sequence of events issues. */
  function Requests(p: Place, s: CardState, events: seq<CardEvent>): nat
    decreases |events|
  {
    if |events| == 0 then 0
    else
      var st := Step(p, s, events[0]);
      (if st.request.Some? then 1 else 0) + Requests(p, st.state, events[1..])
  }

  /** A place without a location never issues a request. */
  lemma {:induction false} NoLocationNoRequest(p: Place, s: CardState, events: seq<CardEvent>)
    requires p.location.None?
    ensures Requests(p, s, events) == 0
    decreases |events|
  {
    if |events| > 0 {
      NoLocationNoRequest(p, Step(p, s, events[0]).state, events[1..]);
    }
  }

  /** Once loaded, a card stays loaded and issues no further request. */
  lemma {:induction false} LoadedIsFinal(p: Place, s: CardState, events: seq<CardEvent>)
    requires s.loaded
    ensures RunState(p, s, events).loaded
    ensures Requests(p, s, events) == 0
    decreases |events|
  {
    if |events| > 0 {
      LoadedIsFinal(p, Step(p, s, events[0]).state, events[1..]);
    }
  }

  /** After any resolution, the details are exactly the resolved trip info
      until the next resolution, and no request follows it. */
  lemma AfterResolution(p: Place, s: CardState, info: TripInfo, rest: seq<CardEvent>)
    requires forall i :: 0 <= i < |rest| ==> !rest[i].Resolved?
    ensures RunState(p, s, [Resolved(info)] + rest) == CardState(info, true)
    ensures Requests(p, s, [Resolved(info)] + rest) == 0
  {
    assert ([Resolved(info)] + rest)[1..] == rest;
    LoadedIsFinal(p, CardState(info, true), rest);
    UnresolvedKeepsState(p, CardState(info, true), rest);
  }

  lemma {:induction false} UnresolvedKeepsState(p: Place, s: CardState, events: seq<CardEvent>)
    requires forall i :: 0 <= i < |events| ==> !events[i].Resolved?
    ensures RunState(p, s, events) == s
    decreases |events|
  {
    if |events| > 0 {
      UnresolvedKeepsState(p, s, events[1..]);
    }
  }

  /** `loaded` is set only on resolution, so a card scrolled out of view and
      back before its first answer arrives asks twice; a rejected request
      leaves it unloaded. */
  lemma RequestsAreNotDeduplicated(p: Place)
    requires p.location.Some? && !Truthy(p.trip.distanceToA)
    ensures Requests(p, Init(p), [EffectRun(true), EffectRun(false), EffectRun(true)]) == 2
    ensures !RunState(p, Init(p), [EffectRun(true), Rejected]).loaded
  {
    var s := Init(p);
    var evs := [EffectRun(true), EffectRun(false), EffectRun(true)];
    assert evs[1..] == [EffectRun(false), EffectRun(true)];
    assert evs[1..][1..] == [EffectRun(true)];
    assert [EffectRun(true), Rejected][1..] == [Rejected];
  }
}

=== FILE: place_details.dfy ===
/** The place-details popup: while it is open with a place id, its effect
    clears the previous details and asks the details service; the callback
    stores the place or the failure message. Rendering shows nothing when
    closed, and the details body only when loaded without error; at most five
    reviews are shown. */
module PlaceDetails {
  import opened Wrappers
  import opened JsText

  datatype Review = Review(author: string, rating: int, text: string)

  /** The fields of the details record the popup reads. */
  datatype Details = Details(
    name: Option<string>,
    formattedAddress: Option<string>,
    phone: Option<string>,
    website: Option<string>,
    url: Option<string>,
    reviews: Option<seq<Review>>)

  datatype PopupState = PopupState(details: Option<Details>, loading: bool, error: Option<string>)

  const Initial := PopupState(None, false, None)

  const LoadFailed := "Failed to load place details."

  /** The new state, and the place id asked for if the effect fetched. */
  datatype Fetch = Fetch(state: PopupState, request: Option<string>)

  /** The effect, run whenever `placeId` or `isOpen` changes. */
  function EffectRun(s: PopupState, isOpen: bool, placeId: Option<string>): (r: Fetch)
    ensures r.request.Some? <==> isOpen && Truthy(placeId)
    ensures r.request.Some? ==> r.request == placeId && r.state == PopupState(None, true, None)
    ensures r.request.None? ==> r.state == s
  {
    if !isOpen || !Truthy(placeId) then Fetch(s, None)
    else Fetch(PopupState(None, true, None), placeId)
  }

  datatype Status = OK | NotOk

  /** The `getDetails` callback. */
  function Callback(s: PopupState, status: Status, place: Option<Details>): (t: PopupState)
    ensures !t.loading
    ensures status == OK && place.Some? ==> t.details == place && t.error == s.error
    ensures !(status == OK && place.Some?) ==> t.details == s.details && t.error == Some(LoadFailed)
  {
    if status == OK && place.Some? then s.(loading := false, details := place)
    else s.(loading := false, error := Some(LoadFailed))
  }

  /** `reviews.slice(0, 5)`. */
  function FirstFive(reviews: seq<Review>): (shown: seq<Review>)
    ensures |shown| <= 5
    ensures shown <= reviews
    ensures |reviews| <= 5 ==> shown == reviews
    ensures |reviews| > 5 ==> |shown| == 5
  {
    if |reviews| <= 5 then reviews else reviews[..5]
  }

  /** The body of the popup: the details and the reviews section, if any. */
  datatype Body = Body(details: Details, reviews: seq<Review>)

  datatype View = Nothing | Popup(spinner: bool, errorText: Option<string>, body: Option<Body>)

  /** `place.reviews`, with an absent list read as empty. */
  function AllReviews(d: Details): seq<Review> {
    if d.reviews.Some? then d.reviews.value else []
  }

  function ReviewSection(d: Details): seq<Review> {
    match d.reviews
    case Some(rs) => if |rs| > 0 then FirstFive(rs) else []
    case None => []
  }

  function Render(s: PopupState, isOpen: bool): (v: View)
    ensures !isOpen <==> v == Nothing
    ensures v.Popup? ==> (v.spinner <==> s.loading)
    ensures v.Popup? ==> (v.errorText.Some? <==> Truthy(s.error)) && (v.errorText.Some? ==> v.errorText == s.error)
    ensures v.Popup? ==> (v.body.Some? <==> !s.loading && !Truthy(s.error) && s.details.Some?)
    ensures v.Popup? && v.body.Some? ==> v.body.value.details == s.details.value && |v.body.value.reviews| <= 5
    ensures v.Popup? && v.body.Some? ==>
              v.body.value.reviews == FirstFive(AllReviews(s.details.value))
  {
    if !isOpen then Nothing
    else
      Popup(s.loading,
            if Truthy(s.error) then s.error else None,
            if !s.loading && !Truthy(s.error) && s.details.Some? then Some(Body(s.details.value, ReviewSection(s.details.value))) else None)
  }

  /** Opening the popup on a place and getting an OK answer shows that place's
      body with its first five reviews in their original order, whatever was shown
      before; a failed answer shows the failure message and no body. */
  lemma OpenThenAnswer(s: PopupState, placeId: string, status: Status, place: Option<Details>)
    requires |placeId| > 0
    ensures var fetched := EffectRun(s, true, Some(placeId));
            var v := Render(Callback(fetched.state, status, place), true);
            && fetched.request == Some(placeId)
            && (status == OK && place.Some? ==>
                  v.body == Some(Body(place.value, FirstFive(AllReviews(place.value)))))
            && (!(status == OK && place.Some?) ==> v.errorText == Some(LoadFailed) && v.body.None?)
  {
    if status == OK && place.Some? && place.value.reviews.Some? {
      var rs := place.value.reviews.value;
      if |rs| > 0 {
        assert ReviewSection(place.value) == FirstFive(rs);
      }
    }
  }
}

=== FILE: share_button.dfy ===
/** The share menu of a venue card: the share message, the SMS link, the
    native-share attempt with its fallback to the clipboard, and the
    open/copied flags of the menu. `encode` stands for `encodeURIComponent`. */
module ShareButton {
  import opened Wrappers
  import opened JsText
  import opened Place

  const Greeting := "Let's meet at "
  const SearchPath := "search/?api=1&query="
  const SearchPrefix := MapsBase + SearchPath
  const SmsPrefix := "sms:?body="

  /** `place.vicinity || place.formatted_address || ''`. */
  function ShareAddress(p: Place): (r: string)
    ensures Truthy(p.vicinity) ==> r == p.vicinity.value
    ensures !Truthy(p.vicinity) && Truthy(p.formattedAddress) ==> r == p.formattedAddress.value
    ensures r == "" <==> !Truthy(p.vicinity) && !Truthy(p.formattedAddress)
  {
    FirstOfTwo(p.vicinity, p.formattedAddress);
    FirstNonEmpty([p.vicinity, p.formattedAddress])
  }

  /** The maps search link for the place's name and address. */
  function MapsUrl(p: Place, encode: string -> string): (u: string)
    ensures StartsWith(u, SearchPrefix)
    ensures u[|SearchPrefix|..] == encode(Show(p.name) + " " + ShareAddress(p))
  {
    SearchPrefix + encode(Show(p.name) + " " + ShareAddress(p))
  }

  /** `getShareText()`. */
  function ShareText(p: Place, encode: string -> string): (t: string)
    ensures StartsWith(t, Greeting + Show(p.name) + "!\n")
    ensures |t| >= |MapsUrl(p, encode)| && t[|t| - |MapsUrl(p, encode)|..] == MapsUrl(p, encode)
  {
    Greeting + Show(p.name) + "!\n" + ShareAddress(p) + "\n" + MapsUrl(p, encode)
  }

  lemma NoBreakInJoin(a: string, b: string)
    requires '\n' !in a && '\n' !in b
    ensures '\n' !in a + b
  {
  }

  lemma SearchPrefixHasNoBreak()
    ensures '\n' !in SearchPrefix
  {
    NoBreakInJoin(MapsBase, SearchPath);
  }

  lemma GreetingLineHasNoBreak(name: string)
    requires '\n' !in name
    ensures '\n' !in Greeting + name + "!"
  {
    assert '\n' !in Greeting;
    NoBreakInJoin(Greeting, name);
    NoBreakInJoin(Greeting + name, "!");
  }

  /** The share message is three lines: the greeting with the name, the
      address, and the maps search link built from the name and the address,
      whenever name, address and encoded query hold no line break of their own. */
  lemma ShareTextLines(p: Place, encode: string -> string)
    requires '\n' !in Show(p.name) && '\n' !in ShareAddress(p)
    requires '\n' !in encode(Show(p.name) + " " + ShareAddress(p))
    ensures Lines(ShareText(p, encode)) ==
              [Greeting + Show(p.name) + "!", ShareAddress(p), SearchPrefix + encode(Show(p.name) + " " + ShareAddress(p))]
  {
    var first := Greeting + Show(p.name) + "!";
    var addr := ShareAddress(p);
    var url := MapsUrl(p, encode);
    GreetingLineHasNoBreak(Show(p.name));
    SearchPrefixHasNoBreak();
    NoBreakInJoin(SearchPrefix, encode(Show(p.name) + " " + addr));
    assert ShareText(p, encode) == first + "\n" + addr + "\n" + url;
    ThreeLines(first, addr, url);
  }

  /** The SMS action's target. */
  function SmsUrl(p: Place, encode: string -> string): (url: string)
    ensures StartsWith(url, SmsPrefix)
    ensures url[|SmsPrefix|..] == encode(ShareText(p, encode))
  {
    SmsPrefix + encode(ShareText(p, encode))
  }

  datatype MenuState = MenuState(isOpen: bool, copied: bool)

  const Closed := MenuState(false, false)

  /** What an action asks of the browser. */
  datatype Effect =
    | NoEffect
    | WriteClipboard(text: string)
    | NativeShare(title: string, text: string)
    | Navigate(url: string)

  /** How the browser answers a clipboard write or a native share. */
  datatype Settled = Fulfilled | Failed

  /** Clicking the Share button. */
  function Toggle(m: MenuState): (r: MenuState)
    ensures r.isOpen != m.isOpen && r.copied == m.copied
  {
    m.(isOpen := !m.isOpen)
  }

  /** Two clicks on the Share button leave the menu as it was. */
  lemma ToggleTwiceIsIdentity(m: MenuState)
    ensures Toggle(Toggle(m)) == m
    ensures Toggle(m).isOpen != m.isOpen
  {
  }

  /** A mousedown anywhere: outside the menu's element it closes the menu. */
  function MouseDown(m: MenuState, insideMenu: bool): (r: MenuState)
    ensures !insideMenu ==> !r.isOpen
    ensures insideMenu ==> r == m
    ensures r.copied == m.copied
  {
    if insideMenu then m else m.(isOpen := false)
  }

  /** `handleCopy` once the clipboard write settles. */
  function CopySettled(m: MenuState, result: Settled): (r: MenuState)
    ensures result == Fulfilled ==> r == MenuState(false, true)
    ensures result == Failed ==> r == m
  {
    match result
    case Fulfilled => m.(copied := true, isOpen := false)
    case Failed => m
  }

  /** The 2000 ms timer after a successful copy. */
  function CopiedExpired(m: MenuState): (r: MenuState)
    ensures !r.copied && r.isOpen == m.isOpen
  {
    m.(copied := false)
  }

  /** `handleNativeShare`: the share sheet when the browser offers one and
      accepts the data, otherwise the clipboard path. `canShare` is `None`
      when the browser has no `navigator.canShare`: with `navigator.share`
      present, calling it throws before the `try`, the handler's promise
      rejects, and nothing is shared or copied. */
  function ShareAction(p: Place, encode: string -> string, shareExists: bool, canShare: Option<bool>): (e: Effect)
    ensures e.NativeShare? <==> shareExists && canShare == Some(true)
    ensures e == NoEffect <==> shareExists && canShare.None?
    ensures e.NativeShare? ==> e.text == ShareText(p, encode) && e.title == "Meet at " + Show(p.name)
    ensures !shareExists || canShare == Some(false) ==> e == WriteClipboard(ShareText(p, encode))
  {
    if !shareExists then WriteClipboard(ShareText(p, encode))
    else
      match canShare
      case None => NoEffect
      case Some(accepts) =>
        if accepts then NativeShare("Meet at " + Show(p.name), ShareText(p, encode))
        else WriteClipboard(ShareText(p, encode))
  }

  /** The menu after the native share settles. */
  function ShareSettled(m: MenuState, result: Settled): (r: MenuState)
    ensures result == Fulfilled ==> !r.isOpen && r.copied == m.copied
    ensures result == Failed ==> r == m
  {
    match result
    case Fulfilled => m.(isOpen := false)
    case Failed => m
  }

  /** `handleSMS`: navigate to the SMS link and close the menu. */
  function SmsAction(m: MenuState, p: Place, encode: string -> string): (r: (MenuState, Effect))
    ensures !r.0.isOpen && r.0.copied == m.copied
    ensures r.1 == Navigate(SmsUrl(p, encode))
  {
    (m.(isOpen := false), Navigate(SmsUrl(p, encode)))
  }

  datatype Entry = CopyEntry(caption: string) | ShareViaEntry | TextEntry

  /** The rendered menu: nothing when closed; otherwise copy, the native-share
      entry only when `navigator.share` is a function, and the text entry. */
  function MenuEntries(m: MenuState, shareIsFunction: bool): (es: seq<Entry>)
    ensures !m.isOpen ==> es == []
    ensures m.isOpen ==> |es| >= 2 && es[0].CopyEntry? && es[|es| - 1] == TextEntry
    ensures ShareViaEntry in es <==> m.isOpen && shareIsFunction
    ensures m.isOpen ==> es[0].caption == if m.copied then "Copied!" else "Copy to Clipboard"
    ensures m.isOpen ==> |es| == (if shareIsFunction then 3 else 2)
    ensures m.isOpen && shareIsFunction ==> es[1] == ShareViaEntry
  {
    if !m.isOpen then []
    else
      [CopyEntry(if m.copied then "Copied!" else "Copy to Clipboard")]
      + (if shareIsFunction then [ShareViaEntry] else [])
      + [TextEntry]
  }
}

=== FILE: wrappers.dfy ===
/** Optional values and success/failure results, standing in for the
    `undefined`/`null` and thrown-error paths of the modelled code. */
module Wrappers {

  /** A value that may be absent (`undefined` or `null` in the source). */
  datatype Option<+T> = None | Some(value: T)

  /** The outcome of a computation that can throw. */
  datatype Result<+R, +E> = Ok(value: R) | Err(error: E)
}
